=== FILE: README.md ===
# A verified model of `List<T, Allocator>`

`List<T, Allocator>` in List.hpp is a doubly linked list. Its nodes form a
ring anchored by a payload-less sentinel node, `m_root`, which is stored
inside the list object itself. A counter `sz` holds the number of payload
nodes. `begin()` is `m_root.next` and `end()` is `&m_root`. Every insertion
goes through `insertNode`, which allocates a node, constructs the element in
it and hooks the node in front of a given position. If construction throws,
`insertNode` frees the node and rethrows. Every removal goes through
`eraseNode`, which does nothing on the sentinel. The public operations are thin
wrappers around these two functions.

The model is written in Dafny:

- **`Base`** (base.dfy) models memory as one shared heap. The heap maps
  addresses to nodes `(prev, next, value)`, where `value` is `None` exactly for
  a sentinel. Allocation returns a fresh address.
- **`Ring`** (ring.dfy) describes a closed ring. `Shape(cells, root, ids)` says
  that following `next` from `root` visits `ids` in order and returns to
  `root`, and that following `prev` does the same in reverse. This file also
  models the `BaseNode` operations `hook`, `unhook`, `swap` and `initToThis`
  as map updates, and proves what each does to a ring.
- **`Walk`** (walk.dfy) walks the links with a shrinking set of unvisited
  nodes, so a walk always ends, even on a broken heap.
- **`Lists`** (list.dfy) defines the abstraction:
  - `Order(h, l)` is the sequence of node addresses met walking `next` from
    the sentinel.
  - `Elements(h, l)` is the payload values in that order.
  - `Valid(h, l)` says the nodes form a closed ring, `sz` equals the number
    of payload nodes, and only the sentinel has no payload.

  This file also models `insertNode`, `eraseNode` and the element-level
  wrappers.
- **`Iterators`** (iterators.dfy) models iterators as node addresses and
  describes each iterator by its position in the ring, where `end()` is the
  last position.
- **`Copy`** (copy.dfy) models the private range `push_back`, the copy
  constructor and copy assignment.
- **`Findings`** (findings.dfy) holds four places where the code does not do
  what it evidently intends; the two move operations share one cause, the
  `std::swap(m_root, other.m_root)` of the sentinels. Each is modelled once
  as written and once corrected. The `Findings` section below lists them.
- **`Scenarios`** (scenarios.dfy) contains concrete scenarios on lists of
  integers.

Element construction may throw. Each operation that constructs elements takes
the failure as a parameter. A single-element operation takes `fault:
Option<Fault>`. A multi-element operation takes `failure: Option<Failure>`,
which gives the index of the element whose construction throws. Every
operation returns the resulting heap, the resulting list object and a
`Result`. The `Result` is either `Ok(value)` or `Threw(fault)`.

## Model

| member | source | states |
|---|---|---|
| Base.Allocate | List.hpp:257 | a node allocation returns an address not in use, adds exactly that address to the heap, and changes no existing node |
| Base.Deallocate | List.hpp:263 | freeing a node removes exactly that address from the heap and changes no other node |
| Base.AllocateThenDeallocate | List.hpp:259-265 | allocating a node and freeing it again, as the rollback path of `insertNode` does, restores the heap's contents |
| Ring.ShapeIsClosed | List.hpp:202-214 | in a well-formed ring every node's `next` points back to it through `prev`, and every node's `prev` points back to it through `next` |
| Ring.Hook | List.hpp:202-207 | after `x.hook(node)`, `x` sits between `node` and the old `node.prev` with all four links updated, no other link changes, and no payload changes |
| Ring.HookShape | List.hpp:202-207 | hooking a fresh node in front of the node at position k of a closed ring yields a closed ring with the new node at position k |
| Ring.Unhook | List.hpp:209-214 | after `unhook()`, the node's two former neighbours point at each other, the node's own links are null, and nothing else changes |
| Ring.UnhookShape | List.hpp:209-214 | unhooking the payload node at position k of a closed ring yields a closed ring without it |
| Ring.Swap | List.hpp:216-228 | `swap(a, b)` changes only the two anchors and keeps every payload |
| Ring.SwapExchanges | List.hpp:216-228 | for distinct anchors, `swap` exchanges their `prev` and `next` links, and a link that pointed at its old anchor now points at the anchor that holds it, so an empty side stays a self-loop; swapping an anchor with itself changes nothing |
| Ring.SwapWithEmpty | List.hpp:216-228 | when one anchor is an empty self-loop, the other anchor receives the non-empty side's links and becomes a self-loop on its own address |
| Ring.SwapInvolution | List.hpp:216-228 | swapping the same two anchors twice restores the heap, provided neither anchor links to the other |
| Ring.InitToThis | List.hpp:230-232 | `initToThis` makes the node an empty closed ring on its own and changes no other node |
| Walk.ForwardShape | List.hpp:363-368 | repeatedly following `next` from `m_root.next` until the sentinel meets exactly the payload nodes, in ring order |
| Walk.BackwardShape | List.hpp:380-385 | repeatedly following `prev` from `m_root.prev` until the sentinel meets exactly the payload nodes, in reverse order |
| Lists.InsertNode | List.hpp:254-273 | on success the new node holds `v`, sits immediately before `pos` (its `next` is `pos`), `sz` grows by exactly 1, the element sequence gains `v` at `pos`'s position, and no payload changes; if construction throws, the storage is freed, the heap's nodes and the list are exactly as before, and the fault propagates |
| Lists.EraseNode | List.hpp:276-285 | on the sentinel it changes nothing and returns the sentinel; otherwise it returns the erased node's former `next`, removes exactly that element from the sequence, decrements `sz`, frees exactly that node, and changes no other payload |
| Lists.NewList | List.hpp:287-292 | the default constructor creates an empty valid list whose sentinel is a self-loop at a fresh address |
| Lists.PushBack | List.hpp:536-544 | `push_back(v)` turns the sequence `s` into `s + [v]`; if construction throws, the list and the heap's nodes are unchanged |
| Lists.PushFront | List.hpp:551-559 | `push_front(v)` turns the sequence `s` into `[v] + s`; if construction throws, the list and the heap's nodes are unchanged |
| Lists.PopBack | List.hpp:546-549 | on an empty list nothing changes; otherwise it drops the last element and frees exactly the last node |
| Lists.PopFront | List.hpp:561-564 | on an empty list nothing changes; otherwise it drops the first element and frees exactly the first node, and the remaining nodes keep their order |
| Lists.Front | List.hpp:575-578 | `front()` of a non-empty list is the first element of the sequence |
| Lists.Back | List.hpp:585-588 | `back()` of a non-empty list is the last element of the sequence |
| Lists.EmplaceBack | List.hpp:522-528 | `emplace_back(v)` appends `v` and returns the new node, whose value is `back()`, which is `v`; if construction throws, the list is unchanged |
| Lists.Size | List.hpp:596-599 | `size()` equals the number of payload nodes on the ring and the length of the element sequence |
| Lists.Empty | List.hpp:601-604 | `empty()` holds exactly when the sequence is empty, and exactly when the sentinel's `next` is the sentinel |
| Lists.Clear | List.hpp:606-609 | `clear()` leaves `sz == 0`, an empty sequence and a self-looped sentinel, and frees exactly the list's payload nodes |
| Iterators.Begin | List.hpp:402-406 | `begin()` is at position 0 (the first element, or `end()` on an empty list) |
| Iterators.End | List.hpp:421-425 | `end()` is at position `size()`, just past the last element |
| Iterators.Next | List.hpp:361-368 | `++it` moves one position forward on the ring, and from `end()` wraps to position 0 |
| Iterators.Prev | List.hpp:378-385 | `--it` moves one position backward, and from `begin()` reaches `end()` |
| Iterators.Equal | List.hpp:347-359 | two iterators into a list compare equal exactly when they are at the same position |
| Iterators.Deref | List.hpp:333-338 | dereferencing an iterator not at `end()` yields the element at its position |
| Iterators.Insert | List.hpp:494-505 | `insert(pos, v)` puts `v` at `pos`'s position and returns an iterator to it, `pos` still refers to the same element one position later, and the new element's successor is `pos`; the new node is spliced into the node order at that position with every other node kept in place, so other iterators keep their node and value; exactly one fresh node is allocated, and if construction throws, the list is unchanged |
| Iterators.Erase | List.hpp:476-480 | `erase(pos)` on `end()` changes nothing; otherwise it removes exactly the element at `pos` and returns an iterator to the element that followed it, now at the same position; exactly that node is freed |
| Iterators.EraseRange | List.hpp:482-492 | `erase(first, last)` is a no-op returning `first` when `first == last` or `first` is `end()`; otherwise it removes exactly the elements in `[first, last)` and returns `last`, now at `first`'s former position; the surviving nodes keep their order, so iterators outside `[first, last)` stay valid, and exactly the nodes of `[first, last)` are freed |
| Iterators.EraseInRange | List.hpp:488-490 | one turn of the erase loop, with positions `[i, c)` already erased, erases the element at old position `c`, frees its node, and leaves the iterator at old position `c + 1` |
| Iterators.EraseSpan | List.hpp:488-491 | the erase loop run from old position `c` to `last` erases exactly the elements at old positions `[i, last)`, frees exactly their nodes, keeps every node outside the list untouched, and stops at `last`, now at position `i` |
| Iterators.Traverse | List.hpp:361-438 | walking with `++` from `begin()` to `end()` and dereferencing yields the element sequence |
| Iterators.TraverseBackward | List.hpp:378-385 | walking with `--` from `end()` back to `begin()` yields the element sequence reversed |
| Iterators.CountByWalking | List.hpp:596-599 | the number of `++` steps from `begin()` to `end()` equals `size()` |
| Iterators.BackwardWalkIsReverse | List.hpp:378-385 | the nodes met following `prev` from the sentinel are the ring order reversed |
| Copy.AppendRange | List.hpp:566-573 | `push_back(first, last)` appends the elements of `[first, last)` in order, up to the first one whose copy throws; the source list and everything outside the target are unchanged |
| Copy.CopyConstruct | List.hpp:294-298 | the copy constructor gives a fresh list equal element by element to the source and leaves the source unchanged; if a copy throws, the fault propagates and every node allocated along the way is freed |
| Copy.CopyAssign | List.hpp:309-315 | copy assignment to oneself changes nothing; otherwise the target's old nodes are freed and its sequence becomes the source's, and the source is unchanged |
| Copy.CopyIsIndependent | List.hpp:294-298 | after a copy, pushing or popping on one list leaves the other list's elements unchanged |
| Findings.EmplaceFrontAsWritten | List.hpp:529-534 | `emplace_front(v)` as written prepends `v` but returns the last node, whose value is `back()` |
| Findings.EmplaceFrontReturnsOldBack | List.hpp:529-534 | on a non-empty list, the node that `emplace_front` as written returns is the old last node and holds the old last element, not `v` |
| Findings.EmplaceFront | List.hpp:529-534 | corrected `emplace_front(v)` prepends `v` and returns the new node, whose value is `front()`, which is `v` |
| Findings.InsertAll | List.hpp:516-518 | inserting each value of a range before `pos` puts the values in order at `pos`'s position, stopping at the first whose construction throws, and `pos` ends up after them |
| Findings.InsertRangeAsWritten | List.hpp:510-520 | range `insert` as written inserts the values before `pos` but returns an iterator to the node before the inserted block: `end()` when inserting at `begin()` |
| Findings.InsertRangeMissesFirst | List.hpp:510-520 | for a non-empty range, the iterator returned as written is not at the first inserted element, although that element is at `pos`'s old position |
| Findings.InsertRange | List.hpp:510-520 | corrected range `insert` returns an iterator at `pos`'s old position: `pos` itself for an empty range, otherwise the first inserted element |
| Findings.SwapSentinels | List.hpp:300-307 | the field-wise `std::swap` of two sentinels gives each sentinel the other's `prev` and `next` verbatim (a self-loop is not redirected), exchanges the counts, and changes no other node |
| Findings.SwapSentinelsLeavesRingsOpen | List.hpp:300-307 | after the field-wise swap of an empty list's sentinel with a valid list's sentinel, neither list is a valid closed ring |
| Findings.MoveConstructAsWritten | List.hpp:300-307 | the move constructor as written leaves neither the new list nor the moved-from list a valid ring |
| Findings.StealNodes | List.hpp:300-307 | relinking the source's first and last nodes to an empty target's sentinel and self-looping the source's sentinel moves the whole sequence to the target and leaves the source empty, with no node allocated or freed |
| Findings.MoveConstruct | List.hpp:300-307 | the corrected move constructor gives a list with the source's elements and leaves the source a valid empty list, with no element node allocated or freed |
| Findings.MoveAssignAsWritten | List.hpp:317-326 | move assignment to oneself changes nothing; otherwise, as written, neither list is left a valid ring |
| Findings.MoveAssign | List.hpp:317-326 | move assignment to oneself changes nothing; the corrected move assignment frees the target's old nodes, gives the target the source's elements and leaves the source a valid empty list |
| Scenarios.PushAndPop | List.hpp:536-564 | pushing 1, 2, 3, 4 at the back, popping one, pushing 5 at the back and 10 at the front gives `[10, 1, 2, 3, 5]` with front 10, back 5 and size 5 |
| Scenarios.EraseMiddle | List.hpp:476-480 | erasing the second element of `[1, 2, 3]` gives `[1, 3]` and an iterator at 3 |
| Scenarios.EraseAll | List.hpp:482-492 | `erase(begin(), end())` on `[1, 2, 3]` empties the list and returns `end()` |
| Scenarios.FailedEmplace | List.hpp:254-273 | an `emplace_back` on `[1, 2]` whose construction throws leaves `[1, 2]` and reports the fault |
| Scenarios.FailedCopy | List.hpp:294-298 | copying `[1, 2, 3]` when the second element's copy throws reports the fault and leaves no node allocated |
| Scenarios.EmplaceFrontOnOne | List.hpp:529-534 | `emplace_front(7)` on `[1]` returns the node holding 1 as written and the node holding 7 when corrected |

## Left out

- Allocators are left out. `std::allocator_traits`, `rebind_alloc`, construct, destroy and the allocator swaps in the move operations are library calls. The model replaces them with fresh-address allocation and a construction step that may throw.
- Two exceptions are modelled, both as `Fault`: an allocation failure (`OutOfMemory`), thrown by the node allocation before anything changes, and an element-construction failure (`ConstructorThrows`), after which `insertNode` frees the node and rethrows. No other exception is modelled.
- Reverse iterators (List.hpp:440-474), const iterators, `cbegin`/`cend` and the non-const-to-const conversion (List.hpp:386-391) are left out. They are library adaptors and compile-time typing, and they walk the same links as the modelled iterators.
- `operator->` (List.hpp:340-345) is left out; it reads the same node value as `operator*`.
- The post-increment form (List.hpp:369-376) is left out; it moves like prefix `++`. The post-decrement form (List.hpp:393-400) is left out as well: it assigns the `BaseNode*` value `ptr->prev` to the `Node*` member `ptr` without the `static_cast` that prefix `--` uses (List.hpp:382), so it is ill-formed once instantiated.
- The destructor (List.hpp:328-331) is not modelled separately. It is `clear()`, which `Lists.Clear` models; the sentinel lives inside the list object and is not heap storage of the list.
- The commented-out `Node::hook` and `Node::unhook` (List.hpp:234-251) are not part of the build and are left out.
- main.cpp is a demo driver that prints construction traces and is not part of this model.
- Lists.Size: `sz` is an unbounded `nat`; the `size_t` wrap-around would need more nodes than memory can hold.
- Lists.Front: requires a non-empty list. On an empty list the source reads the sentinel's nonexistent payload, which is undefined behaviour.
- Lists.Back: requires a non-empty list. On an empty list the source reads the sentinel's nonexistent payload, which is undefined behaviour.
- Iterators.Deref: requires an iterator not at `end()`. Dereferencing the sentinel reads a payload it does not have, which is undefined behaviour in the source.
- Lists.InsertNode: requires the position to be a node of this list's ring. Any other pointer is undefined behaviour in the source.
- Lists.EraseNode: requires the position to be a node of this list's ring. Any other pointer is undefined behaviour in the source.
- Iterators.Insert: requires the position to be a node of this list's ring. Any other pointer is undefined behaviour in the source.
- Iterators.Erase: requires the position to be a node of this list's ring. Any other pointer is undefined behaviour in the source.
- Iterators.EraseRange: requires `first` not to come after `last`. Otherwise the source loop would erase up to the sentinel and then never terminate.
- Iterators.Next: from `end()` the model moves to `begin()`, exactly as the code's `operator++` does by following `m_root.next` (List.hpp:365). The C++ bidirectional-iterator requirements make incrementing `end()` undefined; the model does not exclude it by a precondition.
- Copy.AppendRange: requires two distinct lists to own disjoint sets of nodes. This ownership holds by construction in C++.
- Copy.CopyAssign: requires two distinct lists to own disjoint sets of nodes. This ownership holds by construction in C++.
- Findings.MoveAssign: requires two distinct lists to own disjoint sets of nodes. This ownership holds by construction in C++.
- Findings.MoveAssignAsWritten: requires two distinct lists to own disjoint sets of nodes. This ownership holds by construction in C++.
- Findings.StealNodes: requires two distinct lists to own disjoint sets of nodes. This ownership holds by construction in C++.
- Copy.CopyAssign: when a copy throws midway, the target keeps the elements copied so far and the fault propagates. This follows the code. It does not give the strong guarantee (target unchanged on failure).
- Findings.InsertRange: the input range `[first, last)` is modelled as the sequence of values it yields. An input iterator into the same list is not modelled.
- Findings.InsertRangeAsWritten: the input range `[first, last)` is modelled as the sequence of values it yields. An input iterator into the same list is not modelled.
- Findings.InsertAll: the input range `[first, last)` is modelled as the sequence of values it yields. An input iterator into the same list is not modelled.
- Findings.MoveConstructAsWritten: the `clear()` at the start of the move constructor runs on a freshly constructed empty list, where it does nothing, so it is not modelled as a separate step.
- Findings.MoveConstruct: the `clear()` at the start of the move constructor runs on a freshly constructed empty list, where it does nothing, so it is not modelled as a separate step.

## Findings

| source | as written | input that shows it | evidently intended | confidence | as-written member | corrected member |
|---|---|---|---|---|---|---|
| List.hpp:529-534 | `emplace_front` hooks the new node at the front, then returns `back()` | `emplace_front(7)` on `[1]` returns a reference to 1 | return `front()`, the element just constructed, as `emplace_back` returns `back()` | high; not executed | Findings.EmplaceFrontAsWritten | Findings.EmplaceFront |
| List.hpp:510-520 | range `insert` saves `pos->prev` before inserting and returns it | `insert(begin(), {7, 8})` on `[1, 2]` returns `end()` instead of an iterator at 7 | return an iterator to the first inserted element, or `pos` for an empty range | high; not executed | Findings.InsertRangeAsWritten | Findings.InsertRange |
| List.hpp:300-307 | the move constructor exchanges `m_root` field by field with `std::swap`, so the first and last nodes of the moved ring still point at the source's sentinel | moving `[1]`: the new sentinel's `next` is the node holding 1, whose `prev` is still the old sentinel | transfer the ring to the new sentinel and leave the source empty and self-looped | high; not executed | Findings.MoveConstructAsWritten | Findings.MoveConstruct |
| List.hpp:317-326 | move assignment clears the target, then makes the same field-wise `std::swap` of `m_root` | assigning from `[1]` to an empty list leaves the target's sentinel pointing at a node whose `prev` is the source's sentinel | transfer the ring to the target's sentinel and leave the source empty and self-looped | high; not executed | Findings.MoveAssignAsWritten | Findings.MoveAssign |

=== FILE: base.dfy ===
/**
 The storage model shared by every list: node addresses, the node record that
 merges `_priv::BaseNode` (the two links) with `List::Node` (the payload), and a
 heap with a bump allocator standing in for the node allocator.
 */
module Base {

  datatype Option<T> = None | Some(value: T)

  /** An address in the heap. Allocated addresses are never negative. */
  type Ptr = int

  /** The null pointer; no cell is ever allocated there. */
  const Null: Ptr := -1

  /** One cell of node storage: the links of `BaseNode` and the payload slot of
      `Node`. The sentinel's slot, and a slot not (yet, or no longer)
      constructed, is `None`. */
  datatype Node<T> = Node(prev: Ptr, next: Ptr, value: Option<T>)

  /** All node storage, and the next address the allocator hands out. */
  datatype Heap<T> = Heap(cells: map<Ptr, Node<T>>, top: nat)

  /** Every allocated address lies below the allocator's high-water mark. */
  predicate HeapOk<T>(h: Heap<T>)
  {
    forall p | p in h.cells :: 0 <= p < h.top
  }

  /** What can go wrong while a node is being made: the node allocator throws,
      or the element's constructor throws once the storage exists. */
  datatype Fault = OutOfMemory | ConstructorThrows

  /** In an operation that makes several elements, the making of element
      number `at` (counting from 0 within the operation) throws `fault`. */
  datatype Failure = Failure(at: nat, fault: Fault)

  /** Raw node storage: a fresh cell whose links and payload are unset. */
  function Allocate<T>(h: Heap<T>): (r: (Ptr, Heap<T>))
    requires HeapOk(h)
    ensures r.0 !in h.cells && r.0 != Null
    ensures r.1.cells.Keys == h.cells.Keys + {r.0}
    ensures r.1.cells[r.0].value.None?
    ensures forall p | p in h.cells :: r.1.cells[p] == h.cells[p]
    ensures HeapOk(r.1) && h.top < r.1.top
  {
    (h.top, Heap(h.cells[h.top := Node(Null, Null, None)], h.top + 1))
  }

  /** Return the storage of one cell to the allocator. */
  function Deallocate<T>(h: Heap<T>, p: Ptr): (r: Heap<T>)
    requires HeapOk(h)
    ensures r.cells.Keys == h.cells.Keys - {p}
    ensures forall q | q in r.cells :: r.cells[q] == h.cells[q]
    ensures HeapOk(r) && r.top == h.top
  {
    Heap(h.cells - {p}, h.top)
  }

  /** Allocating and then at once deallocating leaves the cells as they were:
      the rollback of a failed construction leaks nothing. */
  lemma AllocateThenDeallocate<T>(h: Heap<T>)
    requires HeapOk(h)
    ensures Deallocate(Allocate(h).1, Allocate(h).0).cells == h.cells
  {
    var (p, h1) := Allocate(h);
    assert Deallocate(h1, p).cells.Keys == h.cells.Keys;
  }
}

=== FILE: copy.dfy ===
/**
 Copying: the private range `push_back(first, last)`, the copy constructor and
 copy assignment. Each element is copied by its own `push_back`, so a failure
 while copying element `n` leaves the first `n` copies in place.
 */
module Copy {
  import opened Base
  import opened Ring
  import opened Lists
  import opened Iterators

  /** The fault, if any, of the `n`-th element made by a multi-element
      operation. */
  function FaultFor(failure: Option<Failure>, n: nat): (r: Option<Fault>)
    ensures r.Some? <==> failure.Some? && failure.value.at == n
    ensures r.Some? ==> r.value == failure.value.fault
  {
    if failure.Some? && failure.value.at == n then Some(failure.value.fault) else None
  }

  /** Whether a multi-element operation making `count` elements meets its
      failure. */
  predicate Fails(failure: Option<Failure>, count: nat)
  {
    failure.Some? && failure.value.at < count
  }

  /** How many of `count` elements are made before the failure, if any. */
  function Copied(failure: Option<Failure>, count: nat): (r: nat)
    ensures r <= count
    ensures Fails(failure, count) <==> r < count
  {
    if Fails(failure, count) then failure.value.at else count
  }

  /** How a multi-element operation making `count` elements ends. */
  function RangeStatus(failure: Option<Failure>, count: nat): (r: Result<()>)
    ensures r.Threw? <==> Fails(failure, count)
    ensures r.Threw? ==> r.fault == failure.value.fault
  {
    if Fails(failure, count) then Threw(failure.value.fault) else Ok(())
  }

  /** `dst` in `h` became `dst'` in `h'` by gaining cells that were not
      allocated before, and no cell outside `dst` changed. */
  ghost predicate Grew<T>(h: Heap<T>, dst: List, h': Heap<T>, dst': List)
    requires Valid(h, dst)
  {
    && dst'.root == dst.root && Valid(h', dst')
    && Untouched(h, h', Footprint(h, dst)) && Extends(h, dst, h', dst')
  }

  /** `src` reads the same in `h'` as in `h`. */
  ghost predicate Kept<T>(h: Heap<T>, h': Heap<T>, src: List)
    requires Valid(h, src)
  {
    Valid(h', src) && Order(h', src) == Order(h, src) && Elements(h', src) == Elements(h, src)
  }

  /** `e'` is `e` followed by copies of `s[i..j]` up to the failure, if any,
      and `status` says how the copying ended. */
  ghost predicate CopiedOnto<T>(e: seq<T>, s: seq<T>, i: nat, j: nat, failure: Option<Failure>,
                          e': seq<T>, status: Result<()>)
  {
    && i <= j <= |s|
    && e' == e + s[i..i + Copied(failure, j - i)]
    && status == RangeStatus(failure, j - i)
  }

  /** While `dst` only grows by fresh cells, a list `src` apart from it keeps
      its contents and stays apart. */
  lemma SourceIntact<T>(h: Heap<T>, dst: List, src: List, h1: Heap<T>, d1: List)
    requires Valid(h, dst) && Valid(h, src) && Footprint(h, dst) !! Footprint(h, src)
    requires Grew(h, dst, h1, d1)
    ensures Kept(h, h1, src) && Footprint(h1, d1) !! Footprint(h1, src)
  {
    Unaffected(h, h1, src, Footprint(h, dst));
    FootprintAllocated(h, src);
    assert Footprint(h1, src) == Footprint(h, src);
    forall p | p in Footprint(h1, d1) ensures p !in Footprint(h, src) {
      if p !in Footprint(h, dst) {
        assert p !in h.cells;
      }
    }
  }

  /** Two growth steps of `dst` make one. */
  lemma GrowthTrans<T>(h: Heap<T>, dst: List, h1: Heap<T>, d1: List, h2: Heap<T>, d2: List)
    requires Valid(h, dst) && Grew(h, dst, h1, d1) && Grew(h1, d1, h2, d2)
    ensures Grew(h, dst, h2, d2)
  {
    ExtendsTrans(h, dst, h1, d1, h2, d2);
    forall p | p in h.cells && p !in Footprint(h, dst) ensures p in h2.cells && h2.cells[p] == h.cells[p] {
      assert p in h1.cells && h1.cells[p] == h.cells[p];
      assert p !in Footprint(h1, d1);
    }
  }

  /** The same failure, seen from one element further on. */
  function Later(failure: Option<Failure>): (r: Option<Failure>)
    requires FaultFor(failure, 0).None?
    ensures r.Some? <==> failure.Some?
    ensures r.Some? ==> r.value.at + 1 == failure.value.at && r.value.fault == failure.value.fault
  {
    if failure.Some? then Some(Failure(failure.value.at - 1, failure.value.fault)) else None
  }

  /** Copying one element and then `count` more meets the same failure as
      copying `count + 1` elements. */
  lemma LaterShifts(failure: Option<Failure>, count: nat)
    requires FaultFor(failure, 0).None?
    ensures Copied(failure, count + 1) == 1 + Copied(Later(failure), count)
    ensures RangeStatus(failure, count + 1) == RangeStatus(Later(failure), count)
  {
  }

  /** `e` extended by `s[k]` and then by `s[k + 1..m]` is `e` extended by
      `s[k..m]`. */
  lemma SliceJoin<X>(a: seq<X>, s: seq<X>, k: int, m: int, e: seq<X>, e2: seq<X>)
    requires 0 <= k < m <= |s| && e == a + [s[k]] && e2 == e + s[k + 1..m]
    ensures e2 == a + s[k..m]
  {
    assert s[k..m] == [s[k]] + s[k + 1..m];
  }

  /** Copying `s[k]` and then the rest of the range from `k + 1` copies the
      range from `k`. */
  lemma ContentsCompose<T>(ed: seq<T>, s: seq<T>, k: nat, j: nat, failure: Option<Failure>, eo: seq<T>,
                           s': seq<T>, k': nat, j': nat, er: seq<T>, status: Result<()>)
    requires k < j <= |s| && FaultFor(failure, 0).None?
    requires eo == ed + [s[k]] && s' == s && k' == k + 1 && j' == j
    requires CopiedOnto(eo, s', k', j', Later(failure), er, status)
    ensures CopiedOnto(ed, s, k, j, failure, er, status)
  {
    LaterShifts(failure, j - k - 1);
    SliceJoin(ed, s, k, k + 1 + Copied(Later(failure), j - (k + 1)), eo, er);
  }

  /** What the range `push_back` promises, from `dst` in `h` and the range
      [`first`, `last`) of `src`, about its outcome `r`: `dst` has gained copies
      of the elements of the range up to the failure, if any, nothing outside
      `dst` has changed, and `src` is still apart from it. */
  ghost predicate Appended<T>(h: Heap<T>, dst: List, src: List, first: Iterator, last: Iterator,
                              failure: Option<Failure>, r: Outcome<T, ()>)
    requires Valid(h, dst) && Into(h, src, first) && Into(h, src, last)
  {
    && Grew(h, dst, r.heap, r.list)
    && Kept(h, r.heap, src)
    && Footprint(r.heap, r.list) !! Footprint(r.heap, src)
    && CopiedOnto(Elements(h, dst), Elements(h, src), Index(h, src, first), Index(h, src, last),
                  failure, Elements(r.heap, r.list), r.result)
  }

  /** An empty range appends nothing. */
  lemma AppendNothing<T>(h: Heap<T>, dst: List, src: List, first: Iterator, last: Iterator, failure: Option<Failure>)
    requires Valid(h, dst) && Into(h, src, first) && Into(h, src, last)
    requires Footprint(h, dst) !! Footprint(h, src)
    requires Equal(h, src, first, last)
    ensures Appended(h, dst, src, first, last, failure, Outcome(h, dst, Ok(())))
  {
    var i := Index(h, src, first);
    assert Elements(h, src)[i..i] == [];
    assert Elements(h, dst) + [] == Elements(h, dst);
  }

  /** The first copy of a non-empty range throws: nothing changes. */
  lemma AppendFails<T>(h: Heap<T>, dst: List, src: List, first: Iterator, last: Iterator,
                       failure: Option<Failure>, o: Outcome<T, ()>)
    requires Valid(h, dst) && Into(h, src, first) && Into(h, src, last)
    requires Index(h, src, first) < Index(h, src, last)
    requires Footprint(h, dst) !! Footprint(h, src)
    requires FaultFor(failure, 0).Some? && first.ptr != src.root
    requires o == PushBack(h, dst, Deref(h, src, first), FaultFor(failure, 0))
    ensures Appended(h, dst, src, first, last, failure, o)
  {
    SourceIntact(h, dst, src, o.heap, o.list);
    var i := Index(h, src, first);
    assert Elements(h, src)[i..i] == [];
    assert Elements(h, dst) + [] == Elements(h, dst);
  }

  /** After a successful first copy, `src` and both iterators are where they
      were. */
  lemma AppendStep<T>(h: Heap<T>, dst: List, src: List, first: Iterator, last: Iterator, o: Outcome<T, ()>)
    requires Valid(h, dst) && Into(h, src, first) && Into(h, src, last)
    requires Index(h, src, first) < Index(h, src, last)
    requires Footprint(h, dst) !! Footprint(h, src)
    requires first.ptr != src.root
    requires o == PushBack(h, dst, Deref(h, src, first), None)
    ensures Grew(h, dst, o.heap, o.list) && Kept(h, o.heap, src)
    ensures Elements(o.heap, o.list) == Elements(h, dst) + [Elements(h, src)[Index(h, src, first)]]
    ensures Into(o.heap, src, first) && Into(o.heap, src, last)
    ensures Index(o.heap, src, first) == Index(h, src, first)
    ensures Index(o.heap, src, last) == Index(h, src, last)
    ensures Footprint(o.heap, o.list) !! Footprint(o.heap, src)
  {
    SourceIntact(h, dst, src, o.heap, o.list);
    IndexUnique(o.heap, src, first, Index(h, src, first));
    IndexUnique(o.heap, src, last, Index(h, src, last));
  }

  /** One copy followed by the rest of the range is the whole range: `o` is
      the state after copying the element at `first`. */
  lemma AppendCompose<T>(h: Heap<T>, dst: List, src: List, first: Iterator, last: Iterator,
                         failure: Option<Failure>, o: Outcome<T, ()>, r: Outcome<T, ()>)
    requires Valid(h, dst) && Into(h, src, first) && Into(h, src, last)
    requires Index(h, src, first) < Index(h, src, last)
    requires FaultFor(failure, 0).None?
    requires Grew(h, dst, o.heap, o.list) && Kept(h, o.heap, src)
    requires Elements(o.heap, o.list) == Elements(h, dst) + [Elements(h, src)[Index(h, src, first)]]
    requires Into(o.heap, src, first) && Into(o.heap, src, last)
    requires Index(o.heap, src, first) == Index(h, src, first) && Index(o.heap, src, last) == Index(h, src, last)
    requires Appended(o.heap, o.list, src, Next(o.heap, src, first), last, Later(failure), r)
    ensures Appended(h, dst, src, first, last, failure, r)
  {
    GrowthTrans(h, dst, o.heap, o.list, r.heap, r.list);
    var next := Next(o.heap, src, first);
    ContentsCompose(Elements(h, dst), Elements(h, src), Index(h, src, first), Index(h, src, last), failure,
                    Elements(o.heap, o.list), Elements(o.heap, src), Index(o.heap, src, next),
                    Index(o.heap, src, last), Elements(r.heap, r.list), r.result);
  }

  /** The private `push_back(first, last)`: append copies of the elements of
      `src` from `first` up to `last`, one `push_back` each, stopping at the
      first copy that throws. The source range must not belong to `dst`, or
      the walk would never reach `last`. */
  function AppendRange<T>(h: Heap<T>, dst: List, src: List, first: Iterator, last: Iterator,
                          failure: Option<Failure>): (r: Outcome<T, ()>)
    requires Valid(h, dst) && Into(h, src, first) && Into(h, src, last)
    requires Index(h, src, first) <= Index(h, src, last)
    requires Footprint(h, dst) !! Footprint(h, src)
    ensures Appended(h, dst, src, first, last, failure, r)
    decreases Index(h, src, last) - Index(h, src, first)
  {
    if Equal(h, src, first, last) then
      AppendNothing(h, dst, src, first, last, failure);
      Outcome(h, dst, Ok(()))
    else
      IndexUnique(h, src, first, |Order(h, src)|);
      var fault := FaultFor(failure, 0);
      var o := PushBack(h, dst, Deref(h, src, first), fault);
      if fault.Some? then
        AppendFails(h, dst, src, first, last, failure, o);
        o
      else
        AppendStep(h, dst, src, first, last, o);
        var r := AppendRange(o.heap, o.list, src, Next(o.heap, src, first), last, Later(failure));
        AppendCompose(h, dst, src, first, last, failure, o, r);
        r
  }

  /** The target of the copy constructor before any copying: a new, empty
      list whose only cell is its sentinel, fresh in `h`. */
  lemma FreshTarget<T>(h: Heap<T>, src: List, h1: Heap<T>, d1: List, h2: Heap<T>, d2: List)
    requires Valid(h, src) && (h1, d1) == NewList(h)
    requires d2.root == d1.root && Valid(h2, d2) && Elements(h2, d2) == []
    requires h2.cells.Keys == h1.cells.Keys - SetOf(Order(h1, d1))
    requires Untouched(h1, h2, Footprint(h1, d1))
    ensures Kept(h, h2, src) && Untouched(h, h2, {})
    ensures d2.root !in h.cells && h2.cells.Keys == h.cells.Keys + {d2.root}
    ensures Footprint(h2, d2) == {d2.root} && Footprint(h2, d2) !! Footprint(h2, src)
  {
    Unaffected(h, h1, src, {});
    assert Footprint(h1, d1) == {d1.root};
    Unaffected(h1, h2, src, Footprint(h1, d1));
    assert Footprint(h2, d2) == {d2.root};
    FootprintAllocated(h, src);
  }

  /** Appending the whole of `src` to a fresh, empty target copies `src` up to
      the failure, into cells that were all free before. */
  lemma CopiedWhole<T>(h: Heap<T>, src: List, h2: Heap<T>, d2: List, first: Iterator, last: Iterator,
                       failure: Option<Failure>, o: Outcome<T, ()>)
    requires Valid(h, src) && Valid(h2, d2) && Kept(h, h2, src) && Untouched(h, h2, {})
    requires d2.root !in h.cells && h2.cells.Keys == h.cells.Keys + {d2.root}
    requires Footprint(h2, d2) == {d2.root} && Elements(h2, d2) == []
    requires Into(h2, src, first) && Into(h2, src, last)
    requires Index(h2, src, first) == 0 && Index(h2, src, last) == |Elements(h2, src)|
    requires Appended(h2, d2, src, first, last, failure, o)
    ensures Kept(h, o.heap, src) && Untouched(h, o.heap, {})
    ensures o.result == RangeStatus(failure, |Elements(h, src)|)
    ensures o.list.root == d2.root && Valid(o.heap, o.list)
    ensures Elements(o.heap, o.list) == Elements(h, src)[..Copied(failure, |Elements(h, src)|)]
    ensures Footprint(o.heap, o.list) !! h.cells.Keys
    ensures o.heap.cells.Keys == h.cells.Keys + Footprint(o.heap, o.list)
  {
    assert [] + Elements(h, src)[0..Copied(failure, |Elements(h, src)|)]
        == Elements(h, src)[..Copied(failure, |Elements(h, src)|)];
    forall p | p in h.cells && p !in {} ensures p in o.heap.cells && o.heap.cells[p] == h.cells[p] {
      assert p in h2.cells && h2.cells[p] == h.cells[p];
    }
    forall p | p in Footprint(o.heap, o.list) ensures p !in h.cells {
      if p !in Footprint(h2, d2) {
        assert p !in h2.cells;
      }
    }
  }

  /** The rollback of a failed copy construction: the destructor frees the
      copies and the sentinel, and the heap is as before. */
  lemma RolledBack<T>(h: Heap<T>, src: List, h3: Heap<T>, d3: List, h4: Heap<T>, d4: List, h5: Heap<T>)
    requires Valid(h, src) && Valid(h3, d3) && Kept(h, h3, src) && Untouched(h, h3, {})
    requires Footprint(h3, d3) !! h.cells.Keys && h3.cells.Keys == h.cells.Keys + Footprint(h3, d3)
    requires d4.root == d3.root && Valid(h4, d4)
    requires h4.cells.Keys == h3.cells.Keys - SetOf(Order(h3, d3)) && Untouched(h3, h4, Footprint(h3, d3))
    requires h5 == Deallocate(h4, d3.root)
    ensures h5.cells == h.cells && Kept(h, h5, src) && Untouched(h, h5, {})
  {
    assert h5.cells.Keys == h.cells.Keys;
    forall p | p in h.cells ensures h5.cells[p] == h.cells[p] {
      assert p !in Footprint(h3, d3);
      assert h4.cells[p] == h3.cells[p];
    }
  }

  /** `List(const List& other)`: a fresh list made by the default constructor,
      cleared, then filled by `push_back(other.cbegin(), other.cend())`. If a
      copy throws, the delegated-to constructor has already finished, so the
      destructor frees the copies made so far and the object's storage goes
      with it: the heap is as before. */
  method CopyConstruct<T>(h: Heap<T>, src: List, failure: Option<Failure>)
    returns (h': Heap<T>, dst: List, res: Result<()>)
    requires Valid(h, src)
    ensures Kept(h, h', src)
    ensures Untouched(h, h', {})
    ensures res == RangeStatus(failure, |Elements(h, src)|)
    ensures res.Threw? ==> h'.cells == h.cells
    ensures res.Ok? ==>
      && Valid(h', dst) && Elements(h', dst) == Elements(h, src)
      && Footprint(h', dst) !! h.cells.Keys
      && h'.cells.Keys == h.cells.Keys + Footprint(h', dst)
  {
    var made := NewList(h);
    var h1, d1 := made.0, made.1;
    var h2, d2 := Clear(h1, d1);
    FreshTarget(h, src, h1, d1, h2, d2);
    var first, last := Begin(h2, src), End(h2, src);
    var o := AppendRange(h2, d2, src, first, last, failure);
    CopiedWhole(h, src, h2, d2, first, last, failure, o);
    res := o.result;
    if res.Threw? {
      var h4, d4 := Clear(o.heap, o.list);
      h' := Deallocate(h4, d4.root);
      dst := d4;
      RolledBack(h, src, o.heap, o.list, h4, d4, h');
    } else {
      h', dst := o.heap, o.list;
      assert Elements(h, src)[..|Elements(h, src)|] == Elements(h, src);
    }
  }

  /** `operator=(const List& other)`: nothing happens when `other` is this very
      object (same sentinel); otherwise the list is cleared and the elements of
      `other` are appended one by one. A copy that throws leaves the copies made
      before it: the target then holds a prefix of the source. */
  method CopyAssign<T>(h: Heap<T>, dst: List, src: List, failure: Option<Failure>)
    returns (h': Heap<T>, dst': List, res: Result<()>)
    requires Valid(h, dst) && Valid(h, src)
    requires dst.root == src.root || Footprint(h, dst) !! Footprint(h, src)
    ensures dst'.root == dst.root && Valid(h', dst')
    ensures Kept(h, h', src)
    ensures Untouched(h, h', Footprint(h, dst))
    ensures dst.root == src.root ==> h' == h && dst' == dst && res == Ok(())
    ensures dst.root != src.root ==>
      && res == RangeStatus(failure, |Elements(h, src)|)
      && Elements(h', dst') == Elements(h, src)[..Copied(failure, |Elements(h, src)|)]
      && Footprint(h', dst') !! Footprint(h', src)
      && h'.cells.Keys == h.cells.Keys - SetOf(Order(h, dst)) + SetOf(Order(h', dst'))
  {
    if dst.root == src.root {
      return h, dst, Ok(());
    }
    var h1, d1 := Clear(h, dst);
    Unaffected(h, h1, src, Footprint(h, dst));
    assert Footprint(h1, d1) == {dst.root};
    var first, last := Begin(h1, src), End(h1, src);
    var o := AppendRange(h1, d1, src, first, last, failure);
    h', dst', res := o.heap, o.list, o.result;
    Unaffected(h1, h', src, Footprint(h1, d1));
    FootprintAllocated(h, dst);
    FootprintAllocated(h', dst');
    assert dst.root !in SetOf(Order(h', dst'));
  }

  /** The copy is independent of its source: pushing onto, or popping from,
      the copy leaves the source's elements alone, and the reverse. */
  lemma CopyIsIndependent<T>(h: Heap<T>, a: List, b: List, v: T, fault: Option<Fault>)
    requires Valid(h, a) && Valid(h, b) && Footprint(h, a) !! Footprint(h, b)
    ensures var h' := PushBack(h, a, v, fault).heap; Valid(h', b) && Elements(h', b) == Elements(h, b)
    ensures var h' := PushFront(h, a, v, fault).heap; Valid(h', b) && Elements(h', b) == Elements(h, b)
    ensures var h' := PopBack(h, a).heap; Valid(h', b) && Elements(h', b) == Elements(h, b)
    ensures var h' := PopFront(h, a).heap; Valid(h', b) && Elements(h', b) == Elements(h, b)
  {
    Unaffected(h, PushBack(h, a, v, fault).heap, b, Footprint(h, a));
    Unaffected(h, PushFront(h, a, v, fault).heap, b, Footprint(h, a));
    Unaffected(h, PopBack(h, a).heap, b, Footprint(h, a));
    Unaffected(h, PopFront(h, a).heap, b, Footprint(h, a));
  }
}

=== FILE: findings.dfy ===
/**
 Four places where `List.hpp` does not do what its interface evidently means,
 each modelled twice: as written, with a lemma showing the discrepancy, and
 corrected, with the intended property proved.

 - `emplace_front` hands back `back()` instead of the new front element.
 - The range `insert` hands back the node before the inserted block instead of
   the first inserted element.
 - The move constructor and the move assignment both end with
   `std::swap(m_root, other.m_root)`, which exchanges the two sentinels' links
   verbatim, so the payload nodes still point at the old sentinel and neither
   ring is closed.
 */
module Findings {
  import opened Base
  import opened Ring
  import opened Lists
  import opened Iterators
  import opened Copy

  /** `m_root.next`, where `emplace_front` constructs, is on the ring. */
  lemma FrontOnRing<T>(h: Heap<T>, l: List)
    requires Valid(h, l)
    ensures OnRing(h, l, h.cells[l.root].next)
    ensures PosIn(l.root, Order(h, l), h.cells[l.root].next) == 0
  {
    Ends(h, l);
    var ids := Order(h, l);
    if ids != [] {
      assert ids[0] in ids;
    }
    AtInjective(l.root, ids, PosIn(l.root, ids, h.cells[l.root].next), 0);
  }

  // ---------------------------------------------------------------------------
  // emplace_front

  /** A node hooked in before `m_root.next` is the new first node; the last
      node is the old last one, or the new node on a list that was empty. */
  lemma InsertedAtFront<T>(h: Heap<T>, l: List, v: T, o: Outcome<T, Ptr>)
    requires Valid(h, l) && OnRing(h, l, h.cells[l.root].next)
    requires PosIn(l.root, Order(h, l), h.cells[l.root].next) == 0
    requires o.list.root == l.root && Valid(o.heap, o.list)
    requires Inserted(h, l, h.cells[l.root].next, v, o)
    ensures Order(o.heap, o.list) == [o.result.value] + Order(h, l)
    ensures Elements(o.heap, o.list) == [v] + Elements(h, l) && o.list.sz > 0
    ensures o.heap.cells[l.root].next == o.result.value
    ensures o.heap.cells[l.root].prev == Order(o.heap, o.list)[|Order(o.heap, o.list)| - 1]
  {
    var ids := Order(h, l);
    assert ids[..0] == [] && ids[0..] == ids;
    var e := Elements(h, l);
    assert e[..0] == [] && e[0..] == e;
    Ends(o.heap, o.list);
  }

  /** `emplace_front(args...)` as written: construct before `m_root.next`, then
      return `back()`, a reference to the last node. */
  function EmplaceFrontAsWritten<T>(h: Heap<T>, l: List, v: T, fault: Option<Fault>): (r: Outcome<T, Ptr>)
    requires Valid(h, l)
    ensures Grew(h, l, r.heap, r.list)
    ensures fault.Some? ==> r.result == Threw(fault.value) && r.heap.cells == h.cells && r.list == l
    ensures fault.None? ==>
      && Elements(r.heap, r.list) == [v] + Elements(h, l)
      && r.result.Ok? && r.list.sz > 0
      && r.result.value == Order(r.heap, r.list)[|Order(r.heap, r.list)| - 1]
      && r.heap.cells[r.result.value].value == Some(Back(r.heap, r.list))
  {
    FrontOnRing(h, l);
    var o := InsertNode(h, l, h.cells[l.root].next, v, fault);
    if fault.Some? then Outcome(o.heap, o.list, Threw(fault.value))
    else
      InsertedAtFront(h, l, v, o);
      Ends(o.heap, o.list);
      Outcome(o.heap, o.list, Ok(o.heap.cells[l.root].prev))
  }

  /** The discrepancy: on a non-empty list the reference `emplace_front`
      returns is to a node that was already there, the old last one, holding
      the old `back()`, and not to the element just constructed. */
  lemma EmplaceFrontReturnsOldBack<T>(h: Heap<T>, l: List, v: T)
    requires Valid(h, l) && Elements(h, l) != []
    ensures var r := EmplaceFrontAsWritten(h, l, v, None);
      && r.result.Ok? && r.result.value in h.cells
      && r.result.value == Order(h, l)[|Order(h, l)| - 1]
      && r.heap.cells[r.result.value].value == Some(Elements(h, l)[|Elements(h, l)| - 1])
  {
    FrontOnRing(h, l);
    var ids := Order(h, l);
    var o := InsertNode(h, l, h.cells[l.root].next, v, None);
    InsertedAtFront(h, l, v, o);
    var last := ids[|ids| - 1];
    assert last in h.cells;
  }

  /** `emplace_front(args...)` corrected: return `front()`, the element just
      constructed. */
  function EmplaceFront<T>(h: Heap<T>, l: List, v: T, fault: Option<Fault>): (r: Outcome<T, Ptr>)
    requires Valid(h, l)
    ensures Grew(h, l, r.heap, r.list)
    ensures fault.Some? ==> r.result == Threw(fault.value) && r.heap.cells == h.cells && r.list == l
    ensures fault.None? ==>
      && Elements(r.heap, r.list) == [v] + Elements(h, l)
      && r.result.Ok? && r.list.sz > 0
      && r.result.value !in h.cells && r.result.value in r.heap.cells
      && r.heap.cells[r.result.value].value == Some(Front(r.heap, r.list))
      && Front(r.heap, r.list) == v
  {
    FrontOnRing(h, l);
    var o := InsertNode(h, l, h.cells[l.root].next, v, fault);
    if fault.Some? then Outcome(o.heap, o.list, Threw(fault.value))
    else
      InsertedAtFront(h, l, v, o);
      Ends(o.heap, o.list);
      Outcome(o.heap, o.list, Ok(o.heap.cells[l.root].next))
  }

  // ---------------------------------------------------------------------------
  // insert(pos, first, last)

  /** `b` is `a` with `c` entries spliced in at index `k`. */
  ghost predicate SplicedAt<X>(a: seq<X>, k: nat, c: nat, b: seq<X>)
  {
    k <= |a| && |b| == |a| + c && b[..k] == a[..k] && b[k + c..] == a[k..]
  }

  /** `e'` is `e` with `ins` spliced in at index `k`. */
  ghost predicate PutAt<X>(e: seq<X>, k: nat, ins: seq<X>, e': seq<X>)
  {
    k <= |e| && e' == e[..k] + ins + e[k..]
  }

  /** What inserting the values `vs` one by one before `pos` promises, up to
      the failure, if any: exactly the values made so far stand, in order,
      where `pos` was, and `pos` follows them. */
  ghost predicate InsertedAll<T>(h: Heap<T>, l: List, pos: Iterator, vs: seq<T>,
                                 failure: Option<Failure>, r: Outcome<T, ()>)
    requires Into(h, l, pos)
  {
    var k := Index(h, l, pos);
    var c := Copied(failure, |vs|);
    && Grew(h, l, r.heap, r.list)
    && SplicedAt(Order(h, l), k, c, Order(r.heap, r.list))
    && PutAt(Elements(h, l), k, vs[..c], Elements(r.heap, r.list))
    && r.result == RangeStatus(failure, |vs|)
  }

  /** Inserting no values, or failing on the first, changes nothing. */
  lemma InsertNothing<T>(h: Heap<T>, l: List, pos: Iterator, vs: seq<T>, failure: Option<Failure>,
                         r: Outcome<T, ()>)
    requires Into(h, l, pos)
    requires vs == [] || FaultFor(failure, 0).Some?
    requires r.heap.cells == h.cells && h.top <= r.heap.top && HeapOk(r.heap) && r.list == l
    requires r.result == RangeStatus(failure, |vs|)
    ensures InsertedAll(h, l, pos, vs, failure, r)
  {
    var k := Index(h, l, pos);
    assert Order(r.heap, r.list) == Order(h, l);
    assert Elements(h, l)[..k] + [] + Elements(h, l)[k..] == Elements(h, l);
    assert vs[..Copied(failure, |vs|)] == [];
  }

  /** After one value is inserted before `pos`, `pos` is one place further on. */
  lemma InsertStep<T>(h: Heap<T>, l: List, pos: Iterator, v: T, o: Outcome<T, Ptr>)
    requires Into(h, l, pos)
    requires o.list.root == l.root && Valid(o.heap, o.list)
    requires Inserted(h, l, pos.ptr, v, o)
    ensures Into(o.heap, o.list, pos)
    ensures Index(o.heap, o.list, pos) == Index(h, l, pos) + 1
    ensures Order(o.heap, o.list) == Order(h, l)[..Index(h, l, pos)] + [o.result.value] + Order(h, l)[Index(h, l, pos)..]
    ensures Elements(o.heap, o.list) == Elements(h, l)[..Index(h, l, pos)] + [v] + Elements(h, l)[Index(h, l, pos)..]
  {
    var ids := Order(h, l);
    var k := Index(h, l, pos);
    IndexUnique(h, l, pos, PosIn(l.root, ids, pos.ptr));
    AtAfterInsert(l.root, ids, k, o.result.value, k + 1);
    var ids' := Order(o.heap, o.list);
    assert OnRing(o.heap, o.list, pos.ptr) by {
      if k < |ids| { assert ids'[k + 1] in ids'; }
    }
    IndexUnique(o.heap, o.list, pos, k + 1);
  }

  /** Splicing one entry and then `c` more just after it splices `c + 1`. */
  lemma SplicedCompose<X>(a: seq<X>, k: nat, x: X, a1: seq<X>, c: nat, b: seq<X>)
    requires k <= |a| && a1 == a[..k] + [x] + a[k..]
    requires SplicedAt(a1, k + 1, c, b)
    ensures SplicedAt(a, k, c + 1, b)
  {
    assert b[..k] == b[..k + 1][..k];
    assert a1[..k + 1][..k] == a[..k];
    assert b[k + c + 1..] == a1[k + 1..];
    assert a1[k + 1..] == a[k..];
  }

  /** Putting `v` and then `ins` just after it puts `[v] + ins`. */
  lemma PutCompose<X>(e: seq<X>, k: nat, v: X, e1: seq<X>, ins: seq<X>, e2: seq<X>)
    requires k <= |e| && e1 == e[..k] + [v] + e[k..]
    requires PutAt(e1, k + 1, ins, e2)
    ensures PutAt(e, k, [v] + ins, e2)
  {
    assert e1[..k + 1] == e[..k] + [v];
    assert e1[k + 1..] == e[k..];
  }

  /** On the sequences alone: one entry spliced in at `k`, then the rest of
      the run at `k + 1`, is the whole run spliced in at `k`. */
  lemma RunCompose<T>(a: seq<Ptr>, e: seq<T>, k: nat, x: Ptr, vs: seq<T>, failure: Option<Failure>,
                      a1: seq<Ptr>, e1: seq<T>, k1: nat, a2: seq<Ptr>, e2: seq<T>)
    requires k <= |a| && k <= |e| && vs != [] && FaultFor(failure, 0).None?
    requires a1 == a[..k] + [x] + a[k..] && e1 == e[..k] + [vs[0]] + e[k..] && k1 == k + 1
    requires SplicedAt(a1, k1, Copied(Later(failure), |vs[1..]|), a2)
    requires PutAt(e1, k1, vs[1..][..Copied(Later(failure), |vs[1..]|)], e2)
    ensures SplicedAt(a, k, Copied(failure, |vs|), a2)
    ensures PutAt(e, k, vs[..Copied(failure, |vs|)], e2)
  {
    LaterShifts(failure, |vs| - 1);
    var c := Copied(Later(failure), |vs| - 1);
    SplicedCompose(a, k, x, a1, c, a2);
    PutCompose(e, k, vs[0], e1, vs[1..][..c], e2);
    assert [vs[0]] + vs[1..][..c] == vs[..c + 1];
  }

  /** One inserted value followed by the rest is the whole lot. */
  lemma InsertCompose<T>(h: Heap<T>, l: List, pos: Iterator, vs: seq<T>, failure: Option<Failure>,
                         o: Outcome<T, Ptr>, r: Outcome<T, ()>)
    requires Into(h, l, pos) && vs != [] && FaultFor(failure, 0).None? && o.result.Ok?
    requires Grew(h, l, o.heap, o.list)
    requires Into(o.heap, o.list, pos) && Index(o.heap, o.list, pos) == Index(h, l, pos) + 1
    requires Order(o.heap, o.list) == Order(h, l)[..Index(h, l, pos)] + [o.result.value] + Order(h, l)[Index(h, l, pos)..]
    requires Elements(o.heap, o.list) == Elements(h, l)[..Index(h, l, pos)] + [vs[0]] + Elements(h, l)[Index(h, l, pos)..]
    requires InsertedAll(o.heap, o.list, pos, vs[1..], Later(failure), r)
    ensures InsertedAll(h, l, pos, vs, failure, r)
  {
    GrowthTrans(h, l, o.heap, o.list, r.heap, r.list);
    LaterShifts(failure, |vs| - 1);
    RunCompose(Order(h, l), Elements(h, l), Index(h, l, pos), o.result.value, vs, failure,
               Order(o.heap, o.list), Elements(o.heap, o.list), Index(o.heap, o.list, pos),
               Order(r.heap, r.list), Elements(r.heap, r.list));
  }

  /** The loop of the range `insert`: `insertNode(pos, *it)` for each value,
      stopping at the first that throws. Values already inserted stay. */
  function InsertAll<T>(h: Heap<T>, l: List, pos: Iterator, vs: seq<T>, failure: Option<Failure>): (r: Outcome<T, ()>)
    requires Into(h, l, pos)
    ensures InsertedAll(h, l, pos, vs, failure, r)
    decreases |vs|
  {
    if vs == [] then
      InsertNothing(h, l, pos, vs, failure, Outcome(h, l, Ok(())));
      Outcome(h, l, Ok(()))
    else
      var fault := FaultFor(failure, 0);
      var o := InsertNode(h, l, pos.ptr, vs[0], fault);
      if fault.Some? then
        var r := Outcome(o.heap, o.list, Threw(fault.value));
        InsertNothing(h, l, pos, vs, failure, r);
        r
      else
        InsertStep(h, l, pos, vs[0], o);
        var r := InsertAll(o.heap, o.list, pos, vs[1..], Later(failure));
        InsertCompose(h, l, pos, vs, failure, o, r);
        r
  }

  /** Where position `j` of the ring `a` went once `c` entries were spliced
      in at `k`. */
  lemma SplicedPosition(root: Ptr, a: seq<Ptr>, k: nat, c: nat, b: seq<Ptr>, j: int)
    requires SplicedAt(a, k, c, b) && 0 <= j <= |a|
    ensures At(root, b, if j < k then j else j + c) == At(root, a, j)
  {
    if j < k {
      assert b[..k][j] == a[..k][j];
    } else if j < |a| {
      assert b[k + c..][j - k] == a[k..][j - k];
    }
  }

  /** Where the node remembered before the loop (`pos->prev`) and `pos`
      itself end up: the first just before the inserted values, or `end()`
      when they went in at the front; the second just after them. */
  lemma Remembered<T>(h: Heap<T>, l: List, pos: Iterator, ret: Iterator, vs: seq<T>,
                      failure: Option<Failure>, o: Outcome<T, ()>)
    requires Into(h, l, pos) && Into(h, l, ret)
    requires Index(h, l, ret) == Pred(Index(h, l, pos), |Order(h, l)|)
    requires InsertedAll(h, l, pos, vs, failure, o)
    ensures Into(o.heap, o.list, ret) && Into(o.heap, o.list, pos)
    ensures var k := Index(h, l, pos);
      && Index(o.heap, o.list, ret) == (if k == 0 then |Order(o.heap, o.list)| else k - 1)
      && Index(o.heap, o.list, pos) == k + Copied(failure, |vs|)
  {
    var ids := Order(h, l);
    var ids' := Order(o.heap, o.list);
    var k := Index(h, l, pos);
    var c := Copied(failure, |vs|);
    var j := Index(h, l, ret);
    SplicedPosition(l.root, ids, k, c, ids', j);
    SplicedPosition(l.root, ids, k, c, ids', k);
    var jn := if j < k then j else j + c;
    assert OnRing(o.heap, o.list, ret.ptr) by {
      if jn < |ids'| { assert ids'[jn] in ids'; }
    }
    assert OnRing(o.heap, o.list, pos.ptr) by {
      if k + c < |ids'| { assert ids'[k + c] in ids'; }
    }
    IndexUnique(o.heap, o.list, ret, jn);
    IndexUnique(o.heap, o.list, pos, k + c);
  }

  /** The range `insert(pos, first, last)` as written: remember `pos->prev`,
      insert the values one by one before `pos`, and return the remembered
      node. */
  function InsertRangeAsWritten<T>(h: Heap<T>, l: List, pos: Iterator, vs: seq<T>,
                                   failure: Option<Failure>): (r: Outcome<T, Iterator>)
    requires Into(h, l, pos)
    ensures Grew(h, l, r.heap, r.list)
    ensures PutAt(Elements(h, l), Index(h, l, pos), vs[..Copied(failure, |vs|)], Elements(r.heap, r.list))
    ensures Fails(failure, |vs|) ==> r.result == Threw(failure.value.fault)
    ensures Into(r.heap, r.list, pos) && Index(r.heap, r.list, pos) == Index(h, l, pos) + Copied(failure, |vs|)
    ensures !Fails(failure, |vs|) ==>
      && r.result.Ok? && Into(r.heap, r.list, r.result.value)
      && Index(r.heap, r.list, r.result.value)
         == if Index(h, l, pos) == 0 then |Elements(r.heap, r.list)| else Index(h, l, pos) - 1
  {
    var ret := Prev(h, l, pos);
    var o := InsertAll(h, l, pos, vs, failure);
    Remembered(h, l, pos, ret, vs, failure, o);
    if o.result.Threw? then Outcome(o.heap, o.list, Threw(o.result.fault))
    else Outcome(o.heap, o.list, Ok(ret))
  }

  /** After a whole run is put in at `k`, its first value sits at `k`. */
  lemma FirstAtOldIndex<X>(e: seq<X>, k: nat, vs: seq<X>, e': seq<X>)
    requires vs != [] && PutAt(e, k, vs[..Copied(None, |vs|)], e')
    ensures k < |e'| && e'[k] == vs[0]
  {
    assert vs[..Copied(None, |vs|)] == vs;
    assert (e[..k] + vs + e[k..])[k] == vs[0];
  }

  /** The discrepancy: after a successful insertion of at least one value, the
      iterator returned is not at the first inserted value, which sits at the
      old index of `pos`; it is one before it, or `end()` when the values went
      in at the front. */
  lemma InsertRangeMissesFirst<T>(h: Heap<T>, l: List, pos: Iterator, vs: seq<T>)
    requires Into(h, l, pos) && vs != []
    ensures var r := InsertRangeAsWritten(h, l, pos, vs, None);
      && r.result.Ok? && Into(r.heap, r.list, r.result.value)
      && Index(h, l, pos) < |Elements(r.heap, r.list)|
      && Elements(r.heap, r.list)[Index(h, l, pos)] == vs[0]
      && Index(r.heap, r.list, r.result.value) != Index(h, l, pos)
  {
    var r := InsertRangeAsWritten(h, l, pos, vs, None);
    FirstAtOldIndex(Elements(h, l), Index(h, l, pos), vs, Elements(r.heap, r.list));
  }



  /** The node after the remembered one is the first inserted value, or
      `pos` itself when nothing was inserted. */
  lemma AfterRemembered<T>(h: Heap<T>, l: List, pos: Iterator, vs: seq<T>,
                           failure: Option<Failure>, w: Outcome<T, Iterator>)
    requires Into(h, l, pos) && !Fails(failure, |vs|)
    requires Valid(w.heap, w.list)
    requires PutAt(Elements(h, l), Index(h, l, pos), vs[..Copied(failure, |vs|)], Elements(w.heap, w.list))
    requires Into(w.heap, w.list, pos) && Index(w.heap, w.list, pos) == Index(h, l, pos) + Copied(failure, |vs|)
    requires w.result.Ok? && Into(w.heap, w.list, w.result.value)
    requires Index(w.heap, w.list, w.result.value)
             == if Index(h, l, pos) == 0 then |Elements(w.heap, w.list)| else Index(h, l, pos) - 1
    ensures var first := Next(w.heap, w.list, w.result.value);
      && Into(w.heap, w.list, first) && Index(w.heap, w.list, first) == Index(h, l, pos)
      && (vs == [] ==> first == pos)
      && (vs != [] ==> first.ptr != w.list.root && Deref(w.heap, w.list, first) == vs[0])
  {
    var first := Next(w.heap, w.list, w.result.value);
    var k := Index(h, l, pos);
    IndexUnique(w.heap, w.list, first, |Order(w.heap, w.list)|);
    IndexUnique(w.heap, w.list, pos, k);
    if vs != [] {
      var e := Elements(h, l);
      assert Copied(failure, |vs|) == |vs| && vs[..|vs|] == vs;
      assert (e[..k] + vs + e[k..])[k] == vs[0];
    }
  }

  /** The range `insert(pos, first, last)` corrected: return the node after
      the remembered one, which is the first inserted value, or `pos` itself
      when nothing was inserted. */
  function InsertRange<T>(h: Heap<T>, l: List, pos: Iterator, vs: seq<T>,
                          failure: Option<Failure>): (r: Outcome<T, Iterator>)
    requires Into(h, l, pos)
    ensures Grew(h, l, r.heap, r.list)
    ensures PutAt(Elements(h, l), Index(h, l, pos), vs[..Copied(failure, |vs|)], Elements(r.heap, r.list))
    ensures Fails(failure, |vs|) ==> r.result == Threw(failure.value.fault)
    ensures !Fails(failure, |vs|) ==>
      && r.result.Ok? && Into(r.heap, r.list, r.result.value)
      && Index(r.heap, r.list, r.result.value) == Index(h, l, pos)
      && (vs == [] ==> r.result.value == pos)
      && (vs != [] ==> r.result.value.ptr != r.list.root && Deref(r.heap, r.list, r.result.value) == vs[0])
  {
    var w := InsertRangeAsWritten(h, l, pos, vs, failure);
    if w.result.Threw? then w
    else
      AfterRemembered(h, l, pos, vs, failure, w);
      Outcome(w.heap, w.list, Ok(Next(w.heap, w.list, w.result.value)))
  }


  // ---------------------------------------------------------------------------
  // List(List&&) and operator=(List&&)

  /** Two list objects after their contents were moved from `src` to `dst`. */
  datatype Moved<T> = Moved(heap: Heap<T>, dst: List, src: List)

  /** The hand-over both move operations end with, as written: `std::swap` of
      the two `m_root` members, which copies their `prev` and `next` fields as
      plain values, then `std::swap` of the counters. `dst` is empty here (just
      constructed, or just cleared). */
  function SwapSentinels<T>(h: Heap<T>, dst: List, src: List): (r: Moved<T>)
    requires Valid(h, dst) && Valid(h, src) && dst.root != src.root
    ensures r.heap.cells.Keys == h.cells.Keys && r.heap.top == h.top
    ensures r.dst == List(dst.root, src.sz) && r.src == List(src.root, dst.sz)
    ensures r.heap.cells[dst.root]
         == h.cells[dst.root].(prev := h.cells[src.root].prev, next := h.cells[src.root].next)
    ensures r.heap.cells[src.root]
         == h.cells[src.root].(prev := h.cells[dst.root].prev, next := h.cells[dst.root].next)
    ensures Untouched(h, r.heap, {dst.root, src.root})
  {
    var a := h.cells[dst.root];
    var b := h.cells[src.root];
    var cells := h.cells[dst.root := a.(prev := b.prev, next := b.next)]
                        [src.root := b.(prev := a.prev, next := a.next)];
    Moved(Heap(cells, h.top), List(dst.root, src.sz), List(src.root, dst.sz))
  }

  /** On a valid list, the sentinel's `next` is the sentinel itself or a
      payload node that points back at the sentinel. */
  lemma FirstLinks<T>(h: Heap<T>, l: List)
    requires Valid(h, l)
    ensures var p := h.cells[l.root].next;
      p == l.root || (p in h.cells && h.cells[p].value.Some? && h.cells[p].prev == l.root)
  {
    Ends(h, l);
    var ids := Order(h, l);
    var n := |ids|;
    assert Edge(h.cells, At(l.root, ids, n), At(l.root, ids, Succ(n, n)));
  }

  /** A sentinel whose `next` leads to a node that is no payload node, or that
      does not point back, anchors no list. */
  lemma OpenRing<T>(h: Heap<T>, l: List)
    requires l.root in h.cells
    requires var p := h.cells[l.root].next;
      p != l.root && (p in h.cells ==> h.cells[p].value.None? || h.cells[p].prev != l.root)
    ensures !Valid(h, l)
  {
    if Valid(h, l) {
      FirstLinks(h, l);
    }
  }

  /** The discrepancy: whatever `src` held, after the swap neither object is a
      list. `dst.m_root` points at the first and last nodes, but they still
      point back at `src.m_root`; and `src.m_root` points at `dst.m_root`,
      which points elsewhere. Walking `dst` from `begin()` passes through
      `src.m_root`, read as if it held a value, before it reaches `end()`; and
      `dst`'s destructor unhooks its last node through `src.m_root`. */
  lemma SwapSentinelsLeavesRingsOpen<T>(h: Heap<T>, dst: List, src: List)
    requires Valid(h, dst) && Elements(h, dst) == [] && Valid(h, src)
    requires Footprint(h, dst) !! Footprint(h, src)
    ensures var r := SwapSentinels(h, dst, src);
      !Valid(r.heap, r.dst) && !Valid(r.heap, r.src)
  {
    var r := SwapSentinels(h, dst, src);
    var cells := r.heap.cells;
    Ends(h, dst);
    FirstLinks(h, src);
    var p := h.cells[src.root].next;
    assert cells[dst.root].next == p;
    if p != src.root {
      assert p in Footprint(h, src) by { Ends(h, src); }
      assert p != dst.root && cells[p] == h.cells[p];
    }
    OpenRing(r.heap, r.dst);
    assert cells[src.root].next == dst.root && cells[dst.root].value.None?;
    OpenRing(r.heap, r.src);
  }

  /** `List(List&& other)` as written: a fresh empty list, then the swap. */
  function MoveConstructAsWritten<T>(h: Heap<T>, src: List): (r: Moved<T>)
    requires Valid(h, src)
    ensures r.dst.root !in h.cells && r.src.root == src.root
    ensures !Valid(r.heap, r.dst) && !Valid(r.heap, r.src)
  {
    var (h1, dst) := NewList(h);
    FootprintAllocated(h, src);
    Unaffected(h, h1, src, {});
    SwapSentinelsLeavesRingsOpen(h1, dst, src);
    SwapSentinels(h1, dst, src)
  }

  /** The ring of `src`, re-anchored at `dst.m_root`: the first and last
      nodes now point at the new sentinel, which points at them. */
  lemma Reanchored<T>(cells: map<Ptr, Node<T>>, root: Ptr, ids: seq<Ptr>, b: Ptr, cells': map<Ptr, Node<T>>)
    requires Shape(cells, root, ids) && ids != [] && b in cells && b != root && b !in ids
    requires cells'.Keys == cells.Keys
    requires cells'[b] == cells[b].(prev := ids[|ids| - 1], next := ids[0])
    requires cells'[ids[0]].prev == b && cells'[ids[|ids| - 1]].next == b
    requires 1 < |ids| ==> cells'[ids[0]].next == cells[ids[0]].next
    requires 1 < |ids| ==> cells'[ids[|ids| - 1]].prev == cells[ids[|ids| - 1]].prev
    requires forall i | 0 < i < |ids| - 1 :: cells'[ids[i]] == cells[ids[i]]
    ensures Shape(cells', b, ids)
  {
    var n := |ids|;
    forall k | 0 <= k <= n ensures Edge(cells', At(b, ids, k), At(b, ids, Succ(k, n))) {
      if k < n - 1 {
        assert Edge(cells, At(root, ids, k), At(root, ids, Succ(k, n)));
        assert Apart(ids, k, n - 1);
        assert Apart(ids, 0, k + 1);
      }
    }
  }

  /** The hand-over corrected: `dst.m_root` takes over `src`'s first and last
      nodes, those are pointed back at it, `src.m_root` is looped onto itself
      (`initToThis`), and the counters are exchanged. No node is made,
      copied or freed. */
  function StealNodes<T>(h: Heap<T>, dst: List, src: List): (r: Moved<T>)
    requires Valid(h, dst) && Elements(h, dst) == [] && Valid(h, src)
    requires Footprint(h, dst) !! Footprint(h, src)
    ensures r.dst.root == dst.root && r.src.root == src.root
    ensures Valid(r.heap, r.dst) && Valid(r.heap, r.src)
    ensures Order(r.heap, r.dst) == Order(h, src) && Elements(r.heap, r.dst) == Elements(h, src)
    ensures Elements(r.heap, r.src) == []
    ensures r.heap.cells.Keys == h.cells.Keys
    ensures Untouched(h, r.heap, Footprint(h, dst) + Footprint(h, src))
  {
    Ends(h, dst);
    Ends(h, src);
    var ids := Order(h, src);
    if ids == [] then
      assert Footprint(h, dst) == {dst.root} && Footprint(h, src) == {src.root};
      Moved(h, dst, src)
    else
      var n := |ids|;
      var first, last := ids[0], ids[n - 1];
      assert first in SetOf(ids) && last in SetOf(ids);
      var c1 := h.cells[dst.root := h.cells[dst.root].(prev := last, next := first)];
      var c2 := c1[first := c1[first].(prev := dst.root)];
      var c3 := c2[last := c2[last].(next := dst.root)];
      var c4 := InitToThis(c3, src.root);
      forall i | 0 < i < n - 1 ensures c4[ids[i]] == h.cells[ids[i]] {
        assert Apart(ids, 0, i) && Apart(ids, i, n - 1);
        assert ids[i] in SetOf(ids);
      }
      assert 1 < n ==> Apart(ids, 0, n - 1);
      Reanchored(h.cells, src.root, ids, dst.root, c4);
      var h' := Heap(c4, h.top);
      var dst' := List(dst.root, src.sz);
      var src' := List(src.root, dst.sz);
      forall i | 0 <= i < n ensures c4[ids[i]].value == h.cells[ids[i]].value {
        assert ids[i] in SetOf(ids);
      }
      LinkedIsValid(h', dst', ids);
      LinkedIsValid(h', src', []);
      Moved(h', dst', src')
  }

  /** `List(List&& other)` corrected: a fresh empty list that takes over
      `src`'s nodes, leaving `src` empty and usable. */
  function MoveConstruct<T>(h: Heap<T>, src: List): (r: Moved<T>)
    requires Valid(h, src)
    ensures r.dst.root !in h.cells && r.src.root == src.root
    ensures Valid(r.heap, r.dst) && Elements(r.heap, r.dst) == Elements(h, src)
    ensures Valid(r.heap, r.src) && Elements(r.heap, r.src) == []
    ensures r.heap.cells.Keys == h.cells.Keys + {r.dst.root}
    ensures Untouched(h, r.heap, Footprint(h, src))
  {
    var (h1, dst) := NewList(h);
    FootprintAllocated(h, src);
    Unaffected(h, h1, src, {});
    assert Footprint(h1, dst) == {dst.root};
    StealNodes(h1, dst, src)
  }

  /** After `clear()` on `dst`, the two objects are an empty list and an
      untouched `src`, with nothing in common. */
  lemma ClearedApart<T>(h: Heap<T>, dst: List, src: List, h1: Heap<T>, d1: List)
    requires Valid(h, dst) && Valid(h, src) && Footprint(h, dst) !! Footprint(h, src)
    requires d1.root == dst.root && Valid(h1, d1) && Elements(h1, d1) == []
    requires Untouched(h, h1, Footprint(h, dst))
    ensures Valid(h1, src) && Elements(h1, src) == Elements(h, src)
    ensures Footprint(h1, d1) !! Footprint(h1, src) && Footprint(h1, src) == Footprint(h, src)
  {
    Unaffected(h, h1, src, Footprint(h, dst));
    assert Order(h1, d1) == [];
    assert Footprint(h1, d1) == {dst.root};
  }

  /** `operator=(List&& other)` as written: unless it is a self-assignment,
      `clear()` and then the swap, which leaves neither object a list. */
  method MoveAssignAsWritten<T>(h: Heap<T>, dst: List, src: List) returns (r: Moved<T>)
    requires Valid(h, dst) && Valid(h, src)
    requires dst.root == src.root || Footprint(h, dst) !! Footprint(h, src)
    ensures dst.root == src.root ==> r == Moved(h, dst, src)
    ensures dst.root != src.root ==> !Valid(r.heap, r.dst) && !Valid(r.heap, r.src)
  {
    if dst.root == src.root {
      return Moved(h, dst, src);
    }
    var h1, d1 := Clear(h, dst);
    ClearedApart(h, dst, src, h1, d1);
    SwapSentinelsLeavesRingsOpen(h1, d1, src);
    r := SwapSentinels(h1, d1, src);
  }

  /** `operator=(List&& other)` corrected: unless it is a self-assignment,
      free `dst`'s nodes, then take over `src`'s, leaving `src` empty. */
  method MoveAssign<T>(h: Heap<T>, dst: List, src: List) returns (r: Moved<T>)
    requires Valid(h, dst) && Valid(h, src)
    requires dst.root == src.root || Footprint(h, dst) !! Footprint(h, src)
    ensures dst.root == src.root ==> r == Moved(h, dst, src)
    ensures dst.root != src.root ==>
      && r.dst.root == dst.root && r.src.root == src.root
      && Valid(r.heap, r.dst) && Elements(r.heap, r.dst) == Elements(h, src)
      && Valid(r.heap, r.src) && Elements(r.heap, r.src) == []
      && r.heap.cells.Keys == h.cells.Keys - SetOf(Order(h, dst))
      && Untouched(h, r.heap, Footprint(h, dst) + Footprint(h, src))
  {
    if dst.root == src.root {
      return Moved(h, dst, src);
    }
    var h1, d1 := Clear(h, dst);
    ClearedApart(h, dst, src, h1, d1);
    r := StealNodes(h1, d1, src);
    assert Footprint(h1, d1) + Footprint(h1, src) <= Footprint(h, dst) + Footprint(h, src);
  }
}

=== FILE: iterators.dfy ===
/**
 `List::common_iterator`: a bare node pointer, moved along `next` and `prev`,
 and the members of `List` that take or hand out iterators. The const and
 non-const flavours differ only in C++ typing and share this one model.
 */
module Iterators {
  import opened Base
  import opened Ring
  import opened Walk
  import opened Lists

  datatype Iterator = Iterator(ptr: Ptr)

  /** An iterator into `l`: at one of its payload nodes or at `end()`. */
  predicate Into<T>(h: Heap<T>, l: List, it: Iterator)
  {
    Valid(h, l) && OnRing(h, l, it.ptr)
  }

  /** The position of an iterator: its index in the element sequence, or the
      length of the sequence for `end()`. */
  function Index<T>(h: Heap<T>, l: List, it: Iterator): (k: nat)
    requires Into(h, l, it)
    ensures k <= |Order(h, l)| && At(l.root, Order(h, l), k) == it.ptr
  {
    PosIn(l.root, Order(h, l), it.ptr)
  }

  /** Positions and iterators into one list determine each other. */
  lemma IndexUnique<T>(h: Heap<T>, l: List, it: Iterator, k: int)
    requires Into(h, l, it) && 0 <= k <= |Order(h, l)|
    ensures At(l.root, Order(h, l), k) == it.ptr <==> Index(h, l, it) == k
  {
    AtInjective(l.root, Order(h, l), Index(h, l, it), k);
  }

  /** `begin()`: the iterator at `m_root.next`. */
  function Begin<T>(h: Heap<T>, l: List): (it: Iterator)
    requires Valid(h, l)
    ensures Into(h, l, it) && Index(h, l, it) == 0
  {
    Ends(h, l);
    var it := Iterator(h.cells[l.root].next);
    IndexUnique(h, l, it, 0);
    it
  }

  /** `end()`: the iterator at `&m_root`. */
  function End<T>(h: Heap<T>, l: List): (it: Iterator)
    requires Valid(h, l)
    ensures Into(h, l, it) && Index(h, l, it) == |Elements(h, l)|
  {
    IndexUnique(h, l, Iterator(l.root), |Order(h, l)|);
    Iterator(l.root)
  }

  /** `operator++`: follow `next`. From `end()` this wraps round to `begin()`. */
  function Next<T>(h: Heap<T>, l: List, it: Iterator): (r: Iterator)
    requires Into(h, l, it)
    ensures Into(h, l, r) && Index(h, l, r) == Succ(Index(h, l, it), |Order(h, l)|)
  {
    var ids := Order(h, l);
    var k := Index(h, l, it);
    assert Edge(h.cells, At(l.root, ids, k), At(l.root, ids, Succ(k, |ids|)));
    var r := Iterator(h.cells[it.ptr].next);
    IndexUnique(h, l, r, Succ(k, |ids|));
    r
  }

  /** `operator--`: follow `prev`. From `end()` this reaches the last element,
      and from `begin()` it reaches `end()`. */
  function Prev<T>(h: Heap<T>, l: List, it: Iterator): (r: Iterator)
    requires Into(h, l, it)
    ensures Into(h, l, r) && Index(h, l, r) == Pred(Index(h, l, it), |Order(h, l)|)
  {
    var ids := Order(h, l);
    var k := Index(h, l, it);
    var pk := Pred(k, |ids|);
    assert Succ(pk, |ids|) == k;
    assert Edge(h.cells, At(l.root, ids, pk), At(l.root, ids, Succ(pk, |ids|)));
    var r := Iterator(h.cells[it.ptr].prev);
    IndexUnique(h, l, r, pk);
    r
  }

  /** `operator==`: node identity, which for iterators into one list is
      equality of positions. */
  function Equal<T>(h: Heap<T>, l: List, a: Iterator, b: Iterator): (r: bool)
    requires Into(h, l, a) && Into(h, l, b)
    ensures r <==> Index(h, l, a) == Index(h, l, b)
  {
    IndexUnique(h, l, a, Index(h, l, b));
    a.ptr == b.ptr
  }

  /** `operator*`: the payload. Dereferencing `end()` is undefined. */
  function Deref<T>(h: Heap<T>, l: List, it: Iterator): (r: T)
    requires Into(h, l, it) && it.ptr != l.root
    ensures Index(h, l, it) < |Elements(h, l)| && r == Elements(h, l)[Index(h, l, it)]
  {
    IndexUnique(h, l, it, |Order(h, l)|);
    h.cells[it.ptr].value.value
  }

  /** `insert(pos, value)`: a new element just before `pos`, and an iterator to
      it. Iterators to the old elements stay valid and see the same values. */
  function Insert<T>(h: Heap<T>, l: List, pos: Iterator, v: T, fault: Option<Fault>): (r: Outcome<T, Iterator>)
    requires Into(h, l, pos)
    ensures r.list.root == l.root && Valid(r.heap, r.list)
    ensures Untouched(h, r.heap, Footprint(h, l))
    ensures fault.Some? ==> r.result == Threw(fault.value) && r.heap.cells == h.cells && r.list == l
    ensures fault.None? ==>
      var k := Index(h, l, pos);
      && r.result.Ok? && Into(r.heap, r.list, r.result.value) && Into(r.heap, r.list, pos)
      && Elements(r.heap, r.list) == Elements(h, l)[..k] + [v] + Elements(h, l)[k..]
      && Order(r.heap, r.list) == Order(h, l)[..k] + [r.result.value.ptr] + Order(h, l)[k..]
      && Index(r.heap, r.list, r.result.value) == k
      && Index(r.heap, r.list, pos) == k + 1
      && Next(r.heap, r.list, r.result.value) == pos
      && r.result.value.ptr !in h.cells
      && r.heap.cells.Keys == h.cells.Keys + {r.result.value.ptr}
  {
    var o := InsertNode(h, l, pos.ptr, v, fault);
    if fault.Some? then Outcome(o.heap, o.list, Threw(fault.value))
    else
      InsertedAt(h, l, pos, v, o);
      Outcome(o.heap, o.list, Ok(Iterator(o.result.value)))
  }

  /** After `insertNode(pos, v)` the new node sits at `pos`'s old position
      and `pos` one further on. */
  lemma InsertedAt<T>(h: Heap<T>, l: List, pos: Iterator, v: T, o: Outcome<T, Ptr>)
    requires Into(h, l, pos) && o.list.root == l.root && Valid(o.heap, o.list)
    requires Inserted(h, l, pos.ptr, v, o)
    ensures var k, it := Index(h, l, pos), Iterator(o.result.value);
      && Into(o.heap, o.list, it) && Into(o.heap, o.list, pos)
      && Index(o.heap, o.list, it) == k
      && Index(o.heap, o.list, pos) == k + 1
      && Next(o.heap, o.list, it) == pos
  {
    var k := Index(h, l, pos);
    var ids := Order(h, l);
    var ids' := Order(o.heap, o.list);
    SplicedAt(ids, k, o.result.value);
    var it := Iterator(o.result.value);
    assert OnRing(o.heap, o.list, it.ptr) by { assert ids'[k] in ids'; }
    IndexUnique(o.heap, o.list, it, k);
    assert At(o.list.root, ids', k + 1) == pos.ptr;
    IndexUnique(o.heap, o.list, pos, k + 1);
  }

  /** Splicing `x` in at `k`: `x` is at `k`, and what was at `k` is at `k + 1`. */
  lemma SplicedAt(ids: seq<Ptr>, k: int, x: Ptr)
    requires 0 <= k <= |ids|
    ensures var s := ids[..k] + [x] + ids[k..];
      && |s| == |ids| + 1 && s[k] == x
      && (k < |ids| ==> s[k + 1] == ids[k])
  {
  }

  /** `erase(pos)`: remove the element at `pos` and return the iterator that
      followed it; at `end()` nothing happens and `pos` comes back. */
  function Erase<T>(h: Heap<T>, l: List, pos: Iterator): (r: Outcome<T, Iterator>)
    requires Into(h, l, pos)
    ensures r.list.root == l.root && Valid(r.heap, r.list) && r.result.Ok?
    ensures Untouched(h, r.heap, Footprint(h, l))
    ensures pos.ptr == l.root ==> r == Outcome(h, l, Ok(pos))
    ensures pos.ptr != l.root ==>
      var k := Index(h, l, pos);
      && k < |Elements(h, l)|
      && Elements(r.heap, r.list) == Elements(h, l)[..k] + Elements(h, l)[k + 1..]
      && Order(r.heap, r.list) == Order(h, l)[..k] + Order(h, l)[k + 1..]
      && r.list.sz == l.sz - 1
      && r.result.value.ptr == At(l.root, Order(h, l), k + 1)
      && Into(r.heap, r.list, r.result.value) && Index(r.heap, r.list, r.result.value) == k
      && r.heap.cells.Keys == h.cells.Keys - {pos.ptr}
  {
    var o := EraseNode(h, l, pos.ptr);
    if pos.ptr == l.root then Outcome(h, l, Ok(pos))
    else
      var ids := Order(h, l);
      var k := Index(h, l, pos);
      var ids' := Order(o.heap, o.list);
      assert ids' == ids[..k] + ids[k + 1..];
      assert At(o.list.root, ids', k) == At(l.root, ids, k + 1);
      var it := Iterator(o.result.value);
      assert OnRing(o.heap, o.list, it.ptr) by {
        if k < |ids'| { assert ids'[k] in ids'; }
      }
      IndexUnique(o.heap, o.list, it, k);
      Outcome(o.heap, o.list, Ok(it))
  }

  /** Positions `[i, c)` of `h, l` are erased in `h1, l1`, and `it` is at old
      position `c`, the state before one round of `erase(first, last)`. */
  ghost predicate StepReady<T>(h: Heap<T>, l: List, i: int, c: int, h1: Heap<T>, l1: List, it: Iterator)
  {
    && Valid(h, l) && 0 <= i <= c < |Order(h, l)|
    && l1.root == l.root && Valid(h1, l1)
    && Order(h1, l1) == Order(h, l)[..i] + Order(h, l)[c..]
    && Elements(h1, l1) == Elements(h, l)[..i] + Elements(h, l)[c..]
    && it.ptr == Order(h, l)[c] && Into(h1, l1, it)
    && Untouched(h, h1, Footprint(h, l))
  }

  /** One round of `erase(first, last)`: the element at old position `c` goes,
      and the iterator moves to old position `c + 1`. */
  lemma EraseRangeStep<T>(h: Heap<T>, l: List, i: int, c: int, h1: Heap<T>, l1: List, it: Iterator, o: Outcome<T, Iterator>)
    requires StepReady(h, l, i, c, h1, l1, it)
    requires o == Erase(h1, l1, it)
    ensures o.list.root == l.root && Valid(o.heap, o.list)
    ensures Order(o.heap, o.list) == Order(h, l)[..i] + Order(h, l)[c + 1..]
    ensures Elements(o.heap, o.list) == Elements(h, l)[..i] + Elements(h, l)[c + 1..]
    ensures o.result.Ok? && o.result.value.ptr == At(l.root, Order(h, l), c + 1)
    ensures Into(o.heap, o.list, o.result.value)
    ensures Untouched(h, o.heap, Footprint(h, l))
    ensures o.heap.cells.Keys == h1.cells.Keys - {Order(h, l)[c]}
  {
    StepShape(h, l, i, c, h1, l1, it, o);
    StepIterator(h, l, i, c, h1, l1, it, o);
    StepFrame(h, l, i, c, h1, l1, it, o);
  }

  /** The round drops old position `c` from the order and the elements, and
      frees its node. */
  lemma StepShape<T>(h: Heap<T>, l: List, i: int, c: int, h1: Heap<T>, l1: List, it: Iterator, o: Outcome<T, Iterator>)
    requires StepReady(h, l, i, c, h1, l1, it)
    requires o == Erase(h1, l1, it)
    ensures Order(o.heap, o.list) == Order(h, l)[..i] + Order(h, l)[c + 1..]
    ensures Elements(o.heap, o.list) == Elements(h, l)[..i] + Elements(h, l)[c + 1..]
    ensures o.heap.cells.Keys == h1.cells.Keys - {Order(h, l)[c]}
  {
    var ids := Order(h, l);
    var ids1 := Order(h1, l1);
    assert ids1[i] == ids[c];
    AtInjective(l.root, ids, c, |ids|);
    IndexUnique(h1, l1, it, i);
    DropAt(ids, i, c);
    DropAt(Elements(h, l), i, c);
  }

  /** The round leaves the iterator at old position `c + 1`. */
  lemma StepIterator<T>(h: Heap<T>, l: List, i: int, c: int, h1: Heap<T>, l1: List, it: Iterator, o: Outcome<T, Iterator>)
    requires StepReady(h, l, i, c, h1, l1, it)
    requires o == Erase(h1, l1, it)
    ensures o.result.Ok? && o.result.value.ptr == At(l.root, Order(h, l), c + 1)
  {
    var ids := Order(h, l);
    var ids1 := Order(h1, l1);
    assert ids1[i] == ids[c];
    AtInjective(l.root, ids, c, |ids|);
    IndexUnique(h1, l1, it, i);
    assert At(l1.root, ids1, i + 1) == At(l.root, ids, c + 1);
  }

  /** The round touches nothing outside the original list. */
  lemma StepFrame<T>(h: Heap<T>, l: List, i: int, c: int, h1: Heap<T>, l1: List, it: Iterator, o: Outcome<T, Iterator>)
    requires StepReady(h, l, i, c, h1, l1, it)
    requires o == Erase(h1, l1, it)
    ensures Untouched(h, o.heap, Footprint(h, l))
  {
    GapFootprint(h, l, i, c, h1, l1);
    UntouchedTrans(h, h1, o.heap, Footprint(h, l), Footprint(h1, l1));
  }

  /** Dropping index `i` from `a[..i] + a[c..]` drops `a[c]`. */
  lemma DropAt<X>(a: seq<X>, i: int, c: int)
    requires 0 <= i <= c < |a|
    ensures var b := a[..i] + a[c..]; b[..i] + b[i + 1..] == a[..i] + a[c + 1..]
  {
    var b := a[..i] + a[c..];
    assert b[..i] == a[..i];
    assert b[i + 1..] == a[c + 1..];
  }

  /** A list whose walk is a gapped copy of another's owns no more cells. */
  lemma GapFootprint<T>(h: Heap<T>, l: List, i: int, c: int, h1: Heap<T>, l1: List)
    requires Valid(h, l) && 0 <= i <= c <= |Order(h, l)|
    requires l1.root == l.root && l1.root in h1.cells
    requires Order(h1, l1) == Order(h, l)[..i] + Order(h, l)[c..]
    ensures Footprint(h1, l1) <= Footprint(h, l)
  {
    var ids := Order(h, l);
    var ids1 := Order(h1, l1);
    forall p | p in SetOf(ids1) ensures p in SetOf(ids) {
      var q :| 0 <= q < |ids1| && ids1[q] == p;
      if q < i { assert ids[q] == p; } else { assert ids[c + q - i] == p; }
    }
  }

  /** Freeing the node at position `c` extends the freed run `[i, c)` by one. */
  lemma FreedOneMore(keys: set<Ptr>, ids: seq<Ptr>, i: int, c: int, k0: set<Ptr>, k1: set<Ptr>)
    requires 0 <= i <= c < |ids|
    requires k0 == keys - SetOf(ids[i..c]) && k1 == k0 - {ids[c]}
    ensures k1 == keys - SetOf(ids[i..c + 1])
  {
    assert ids[i..c + 1] == ids[i..c] + [ids[c]];
  }

  /** `h1, l1` is `h, l` with the elements at positions `[i, c)` erased and
      their nodes freed. */
  ghost predicate SpanErased<T>(h: Heap<T>, l: List, i: int, c: int, h1: Heap<T>, l1: List)
    requires Valid(h, l) && 0 <= i <= c <= |Order(h, l)|
  {
    && l1.root == l.root && Valid(h1, l1)
    && Order(h1, l1) == Order(h, l)[..i] + Order(h, l)[c..]
    && Elements(h1, l1) == Elements(h, l)[..i] + Elements(h, l)[c..]
    && Untouched(h, h1, Footprint(h, l))
    && h1.cells.Keys == h.cells.Keys - SetOf(Order(h, l)[i..c])
  }

  /** One turn of the loop in `erase(first, last)`: `it = erase(it)` on the
      node at old position `c`, with `[i, c)` already gone. */
  method EraseInRange<T>(h: Heap<T>, l: List, ghost i: int, ghost c: int, h1: Heap<T>, l1: List, it: Iterator)
    returns (h2: Heap<T>, l2: List, it2: Iterator)
    requires Valid(h, l) && 0 <= i <= c < |Order(h, l)|
    requires SpanErased(h, l, i, c, h1, l1)
    requires it.ptr == Order(h, l)[c] && Into(h1, l1, it)
    ensures SpanErased(h, l, i, c + 1, h2, l2)
    ensures it2.ptr == At(l.root, Order(h, l), c + 1) && Into(h2, l2, it2)
  {
    var o := Erase(h1, l1, it);
    EraseRangeStep(h, l, i, c, h1, l1, it, o);
    FreedOneMore(h.cells.Keys, Order(h, l), i, c, h1.cells.Keys, o.heap.cells.Keys);
    h2, l2, it2 := o.heap, o.list, o.result.value;
  }

  /** The loop of `erase(first, last)` once both guards have passed,
      `for (it = first; it != last;) it = erase(it);`, written as recursion
      on the turns still to go: `h1, l1` has `[i, c)` erased and `it` is at
      old position `c`. */
  method EraseSpan<T>(h: Heap<T>, l: List, ghost i: int, ghost c: int, h1: Heap<T>, l1: List, it: Iterator, last: Iterator)
    returns (h': Heap<T>, l': List, r: Iterator)
    requires Valid(h, l) && 0 <= i <= c <= |Order(h, l)|
    requires SpanErased(h, l, i, c, h1, l1)
    requires it.ptr == At(l.root, Order(h, l), c) && Into(h1, l1, it)
    requires Into(h, l, last) && c <= Index(h, l, last)
    ensures var j := Index(h, l, last);
      && SpanErased(h, l, i, j, h', l')
      && l'.sz == l.sz - (j - i)
      && r == last && Into(h', l', r) && Index(h', l', r) == i
    decreases Index(h, l, last) - c
  {
    IndexUnique(h, l, last, c);
    if it == last {
      h', l', r := h1, l1, it;
      SpanEnd(h, l, i, c, h1, l1, last, r);
    } else {
      var h2, l2, it2 := EraseInRange(h, l, i, c, h1, l1, it);
      h', l', r := EraseSpan(h, l, i, c + 1, h2, l2, it2, last);
    }
  }

  /** Before the loop nothing is erased yet. */
  lemma SpanStart<T>(h: Heap<T>, l: List, i: int)
    requires Valid(h, l) && 0 <= i <= |Order(h, l)|
    ensures SpanErased(h, l, i, i, h, l)
  {
    assert Elements(h, l) == Elements(h, l)[..i] + Elements(h, l)[i..];
    assert Order(h, l) == Order(h, l)[..i] + Order(h, l)[i..];
    assert SetOf(Order(h, l)[i..i]) == {};
  }

  /** After the loop `[i, j)` is gone and the iterator, at `last`, sits at
      position `i`. */
  lemma SpanEnd<T>(h: Heap<T>, l: List, i: int, j: int, h1: Heap<T>, l1: List, last: Iterator, r: Iterator)
    requires Valid(h, l) && 0 <= i <= j <= |Order(h, l)|
    requires SpanErased(h, l, i, j, h1, l1)
    requires Into(h, l, last) && Index(h, l, last) == j
    requires r.ptr == At(l.root, Order(h, l), j) && Into(h1, l1, r)
    ensures r == last && l1.sz == l.sz - (j - i) && Index(h1, l1, r) == i
  {
    IndexUnique(h1, l1, r, i);
  }

  /** `erase(first, last)`: remove the elements of `[first, last)` and return
      `last`. When `first` is `end()` or equals `last`, nothing happens and
      `first` comes back. `last` must not come before `first` unless `first`
      is `end()`. */
  method EraseRange<T>(h: Heap<T>, l: List, first: Iterator, last: Iterator) returns (h': Heap<T>, l': List, r: Iterator)
    requires Into(h, l, first) && Into(h, l, last)
    requires first.ptr == l.root || Index(h, l, first) <= Index(h, l, last)
    ensures l'.root == l.root && Valid(h', l')
    ensures Untouched(h, h', Footprint(h, l))
    ensures first.ptr == l.root || first == last ==> h' == h && l' == l && r == first
    ensures first.ptr != l.root ==>
      var i, j := Index(h, l, first), Index(h, l, last);
      && Elements(h', l') == Elements(h, l)[..i] + Elements(h, l)[j..]
      && Order(h', l') == Order(h, l)[..i] + Order(h, l)[j..]
      && l'.sz == l.sz - (j - i)
      && r == last && Into(h', l', r) && Index(h', l', r) == i
      && h'.cells.Keys == h.cells.Keys - SetOf(Order(h, l)[i..j])
  {
    if first.ptr == l.root || first == last {
      h', l', r := h, l, first;
      if first.ptr != l.root {
        assert Elements(h, l) == Elements(h, l)[..Index(h, l, first)] + Elements(h, l)[Index(h, l, first)..];
        assert Order(h, l) == Order(h, l)[..Index(h, l, first)] + Order(h, l)[Index(h, l, first)..];
        assert SetOf(Order(h, l)[Index(h, l, first)..Index(h, l, first)]) == {};
      }
    } else {
      SpanStart(h, l, Index(h, l, first));
      h', l', r := EraseSpan(h, l, Index(h, l, first), Index(h, l, first), h, l, first, last);
    }
  }

  /** A full forward traversal, `for (it = begin(); it != end(); ++it)`,
      yields the elements in order. */
  method Traverse<T>(h: Heap<T>, l: List) returns (s: seq<T>)
    requires Valid(h, l)
    ensures s == Elements(h, l)
  {
    var it := Begin(h, l);
    var stop := End(h, l);
    s := [];
    while it != stop
      invariant Into(h, l, it) && s == Elements(h, l)[..Index(h, l, it)]
      decreases |Elements(h, l)| - Index(h, l, it)
    {
      IndexUnique(h, l, it, |Order(h, l)|);
      s := s + [Deref(h, l, it)];
      it := Next(h, l, it);
    }
    IndexUnique(h, l, it, |Order(h, l)|);
  }

  /** `s` is the suffix of `e` from index `j` on, back to front. */
  ghost predicate ReversedFrom<X>(s: seq<X>, e: seq<X>, j: int)
  {
    0 <= j <= |e| && |s| == |e| - j && forall m | 0 <= m < |s| :: s[m] == e[|e| - 1 - m]
  }

  /** One more step backwards extends the reversed suffix by one. */
  lemma ReversedStep<X>(s: seq<X>, e: seq<X>, j: int, x: X)
    requires ReversedFrom(s, e, j) && 0 < j && x == e[j - 1]
    ensures ReversedFrom(s + [x], e, j - 1)
  {
  }

  /** The whole of `e`, back to front, is its reverse. */
  lemma ReversedAll<X>(s: seq<X>, e: seq<X>)
    requires ReversedFrom(s, e, 0)
    ensures s == Reverse(e)
  {
    var r := Reverse(e);
    assert |s| == |r|;
    forall m | 0 <= m < |s| ensures s[m] == r[m] { }
  }

  /** Walking `prev` from `end()` back to `begin()` yields the elements in
      reverse order. */
  method TraverseBackward<T>(h: Heap<T>, l: List) returns (s: seq<T>)
    requires Valid(h, l)
    ensures s == Reverse(Elements(h, l))
  {
    var it := End(h, l);
    var stop := Begin(h, l);
    ghost var e := Elements(h, l);
    s := [];
    while it != stop
      invariant Into(h, l, it) && ReversedFrom(s, e, Index(h, l, it))
      decreases Index(h, l, it)
    {
      ghost var j := Index(h, l, it);
      IndexUnique(h, l, it, 0);
      it := Prev(h, l, it);
      var x := Deref(h, l, it);
      ReversedStep(s, e, j, x);
      s := s + [x];
    }
    IndexUnique(h, l, it, 0);
    ReversedAll(s, e);
  }

  /** The number of payload nodes met walking `next` from `begin()` to `end()`
      is `size()`. */
  method CountByWalking<T>(h: Heap<T>, l: List) returns (n: nat)
    requires Valid(h, l)
    ensures n == Size(h, l)
  {
    var it := Begin(h, l);
    n := 0;
    while it != End(h, l)
      invariant Into(h, l, it) && n == Index(h, l, it)
      decreases Size(h, l) - n
    {
      IndexUnique(h, l, it, |Order(h, l)|);
      it := Next(h, l, it);
      n := n + 1;
    }
  }

  /** Following `prev` from `m_root.prev` meets the payload nodes of the list in
      reverse order: the ring is closed in both directions. */
  lemma BackwardWalkIsReverse<T>(h: Heap<T>, l: List)
    requires Valid(h, l)
    ensures Backward(h.cells, h.cells[l.root].prev, l.root, h.cells.Keys - {l.root}) == Reverse(Order(h, l))
  {
    BackwardShape(h.cells, l.root, Order(h, l));
  }
}

=== FILE: list.dfy ===
/**
 The `List<T, Allocator>` container: a sentinel `m_root` anchoring a closed ring
 of payload nodes, and the element count `sz`.

 A list is a value `List(root, sz)`: `root` is the address of the object's own
 `m_root` cell in the shared heap. Its abstract contents are obtained by walking
 `next` from `m_root.next` back to `m_root`.
 */
module Lists {
  import opened Base
  import opened Ring
  import opened Walk

  /** A list object: where its sentinel lives, and its `sz` counter. */
  datatype List = List(root: Ptr, sz: nat)

  /** How an operation that constructs elements ended: normally, or by letting
      an exception out. */
  datatype Result<R> = Ok(value: R) | Threw(fault: Fault)

  /** The heap and list after an operation, and what it returned. */
  datatype Outcome<T, R> = Outcome(heap: Heap<T>, list: List, result: Result<R>)

  /** `ids` are, in order, the payload nodes of a list whose ring is closed,
      whose sentinel holds no payload and whose counter is exact. */
  predicate Linked<T>(h: Heap<T>, l: List, ids: seq<Ptr>)
  {
    && Shape(h.cells, l.root, ids)
    && l.sz == |ids|
    && h.cells[l.root].value.None?
    && (forall i | 0 <= i < |ids| :: h.cells[ids[i]].value.Some?)
  }

  /** The payload nodes met walking `next` from `begin()` to `end()`. */
  function Order<T>(h: Heap<T>, l: List): seq<Ptr>
    requires l.root in h.cells
  {
    Forward(h.cells, h.cells[l.root].next, l.root, h.cells.Keys - {l.root})
  }

  /** The representation invariant of a list. */
  predicate Valid<T>(h: Heap<T>, l: List)
  {
    HeapOk(h) && l.root in h.cells && Linked(h, l, Order(h, l))
  }

  function Values<T>(cells: map<Ptr, Node<T>>, ids: seq<Ptr>): (r: seq<T>)
    requires forall i | 0 <= i < |ids| :: ids[i] in cells && cells[ids[i]].value.Some?
    ensures |r| == |ids|
    ensures forall i | 0 <= i < |ids| :: r[i] == cells[ids[i]].value.value
  {
    seq(|ids|, i requires 0 <= i < |ids| => cells[ids[i]].value.value)
  }

  /** The payloads seen along `ids` after `x`, holding `v`, is spliced in at
      position `k`, when no payload of `ids` changed. */
  lemma ValuesSpliced<T>(cells: map<Ptr, Node<T>>, cells': map<Ptr, Node<T>>, ids: seq<Ptr>, k: int, x: Ptr, v: T)
    requires 0 <= k <= |ids|
    requires forall i | 0 <= i < |ids| :: ids[i] in cells && cells[ids[i]].value.Some?
    requires forall i | 0 <= i < |ids| :: ids[i] in cells' && cells'[ids[i]].value == cells[ids[i]].value
    requires x in cells' && cells'[x].value == Some(v)
    ensures var ids' := ids[..k] + [x] + ids[k..];
      && (forall i | 0 <= i < |ids'| :: ids'[i] in cells' && cells'[ids'[i]].value.Some?)
      && Values(cells', ids') == Values(cells, ids)[..k] + [v] + Values(cells, ids)[k..]
  {
    var ids' := ids[..k] + [x] + ids[k..];
    forall i | 0 <= i < |ids'| ensures ids'[i] in cells' && cells'[ids'[i]].value.Some? {
      if i > k { assert ids'[i] == ids[i - 1]; }
    }
    var e, e' := Values(cells, ids), Values(cells', ids');
    forall i | 0 <= i < |e'| ensures e'[i] == (e[..k] + [v] + e[k..])[i] {
      if i > k { assert ids'[i] == ids[i - 1]; }
    }
  }

  /** The payloads seen along `ids` once position `k` is dropped, when no
      other payload changed. */
  lemma ValuesDropped<T>(cells: map<Ptr, Node<T>>, cells': map<Ptr, Node<T>>, ids: seq<Ptr>, k: int)
    requires 0 <= k < |ids|
    requires forall i | 0 <= i < |ids| :: ids[i] in cells && cells[ids[i]].value.Some?
    requires forall i | 0 <= i < |ids| && i != k :: ids[i] in cells' && cells'[ids[i]].value == cells[ids[i]].value
    ensures var ids' := ids[..k] + ids[k + 1..];
      && (forall i | 0 <= i < |ids'| :: ids'[i] in cells' && cells'[ids'[i]].value.Some?)
      && Values(cells', ids') == Values(cells, ids)[..k] + Values(cells, ids)[k + 1..]
  {
    var ids' := ids[..k] + ids[k + 1..];
    forall i | 0 <= i < |ids'| ensures ids'[i] in cells' && cells'[ids'[i]].value.Some? {
      if i >= k { assert ids'[i] == ids[i + 1]; }
    }
    var e, e' := Values(cells, ids), Values(cells', ids');
    forall i | 0 <= i < |e'| ensures e'[i] == (e[..k] + e[k + 1..])[i] {
      if i >= k { assert ids'[i] == ids[i + 1]; }
    }
  }

  /** The abstract sequence of elements, front to back. */
  function Elements<T>(h: Heap<T>, l: List): seq<T>
    requires Valid(h, l)
  {
    Values(h.cells, Order(h, l))
  }

  /** The cells a list owns: its sentinel and its payload nodes. */
  function Footprint<T>(h: Heap<T>, l: List): set<Ptr>
    requires l.root in h.cells
  {
    {l.root} + SetOf(Order(h, l))
  }

  /** A pointer into the list: one of its payload nodes or its sentinel. */
  predicate OnRing<T>(h: Heap<T>, l: List, p: Ptr)
    requires l.root in h.cells
  {
    p == l.root || p in Order(h, l)
  }

  /** Any closed ring with an exact counter is the list's walk. */
  lemma LinkedIsValid<T>(h: Heap<T>, l: List, ids: seq<Ptr>)
    requires HeapOk(h) && Linked(h, l, ids)
    ensures Valid(h, l) && Order(h, l) == ids
  {
    ForwardShape(h.cells, l.root, ids);
  }

  /** The cells of `h` outside `fp` are still there in `h'`, unchanged. */
  ghost predicate Untouched<T>(h: Heap<T>, h': Heap<T>, fp: set<Ptr>)
  {
    && h.top <= h'.top
    && (forall p | p in h.cells && p !in fp :: p in h'.cells && h'.cells[p] == h.cells[p])
  }

  /** The list kept every cell it owned and gained only cells that were not
      allocated before; those are all the heap gained. */
  ghost predicate Extends<T>(h: Heap<T>, l: List, h': Heap<T>, l': List)
    requires l.root in h.cells && l'.root in h'.cells
  {
    && Footprint(h, l) <= Footprint(h', l')
    && h'.cells.Keys == h.cells.Keys + (Footprint(h', l') - Footprint(h, l))
    && (forall p | p in Footprint(h', l') - Footprint(h, l) :: p !in h.cells)
  }

  /** A valid list owns only allocated cells. */
  lemma FootprintAllocated<T>(h: Heap<T>, l: List)
    requires Valid(h, l)
    ensures Footprint(h, l) <= h.cells.Keys
  {
    var ids := Order(h, l);
    forall p | p in SetOf(ids) ensures p in h.cells {
      var i :| 0 <= i < |ids| && ids[i] == p;
    }
  }

  lemma ExtendsTrans<T>(h1: Heap<T>, l1: List, h2: Heap<T>, l2: List, h3: Heap<T>, l3: List)
    requires l1.root in h1.cells && l2.root in h2.cells && l3.root in h3.cells
    requires Extends(h1, l1, h2, l2) && Extends(h2, l2, h3, l3)
    ensures Extends(h1, l1, h3, l3)
  {
  }

  /** A list none of whose cells an operation touched keeps its contents: the
      lists of a heap are independent of each other. */
  lemma Unaffected<T>(h: Heap<T>, h': Heap<T>, l: List, fp: set<Ptr>)
    requires Valid(h, l) && HeapOk(h')
    requires Untouched(h, h', fp) && Footprint(h, l) !! fp
    ensures Valid(h', l) && Order(h', l) == Order(h, l) && Elements(h', l) == Elements(h, l)
  {
    var ids := Order(h, l);
    forall i | 0 <= i < |ids| ensures ids[i] in h'.cells && h'.cells[ids[i]] == h.cells[ids[i]] {
      assert ids[i] in SetOf(ids);
      assert ids[i] in Footprint(h, l) && ids[i] !in fp && ids[i] in h.cells;
      var q := ids[i];
      assert q in h'.cells && h'.cells[q] == h.cells[q];
    }
    ShapeFrame(h.cells, h'.cells, l.root, ids);
    LinkedIsValid(h', l, ids);
  }

  /** A heap with the same cells holds the same lists. */
  lemma SameCells<T>(h: Heap<T>, h': Heap<T>, l: List)
    requires Valid(h, l) && HeapOk(h') && h'.cells == h.cells && h.top <= h'.top
    ensures Valid(h', l) && Order(h', l) == Order(h, l) && Elements(h', l) == Elements(h, l)
    ensures Footprint(h', l) == Footprint(h, l) && Untouched(h, h', Footprint(h, l))
    ensures Extends(h, l, h', l)
  {
  }

  /** What a successful `insertNode(pos, v)` achieves. */
  ghost predicate Inserted<T>(h: Heap<T>, l: List, pos: Ptr, v: T, r: Outcome<T, Ptr>)
    requires Valid(h, l) && OnRing(h, l, pos) && Valid(r.heap, r.list)
  {
    var ids := Order(h, l);
    var k := PosIn(l.root, ids, pos);
    && r.result.Ok?
    && r.result.value !in h.cells
    && r.heap.cells.Keys == h.cells.Keys + {r.result.value}
    && r.heap.cells[r.result.value].next == pos
    && r.list.sz == l.sz + 1
    && Order(r.heap, r.list) == ids[..k] + [r.result.value] + ids[k..]
    && Elements(r.heap, r.list) == Elements(h, l)[..k] + [v] + Elements(h, l)[k..]
  }

  /** Linking a freshly constructed node in before position `k`. */
  lemma HookNew<T>(h: Heap<T>, l: List, h2: Heap<T>, x: Ptr, v: T, k: int, h3: Heap<T>)
    requires Valid(h, l) && 0 <= k <= |Order(h, l)|
    requires x !in h.cells && HeapOk(h2) && h.top <= h2.top
    requires h2.cells == h.cells[x := Node(Null, Null, Some(v))]
    requires At(l.root, Order(h, l), k) in h2.cells && h2.cells[At(l.root, Order(h, l), k)].prev in h2.cells
    requires x != At(l.root, Order(h, l), k) && x != h2.cells[At(l.root, Order(h, l), k)].prev
    requires h3 == Heap(Hook(h2.cells, x, At(l.root, Order(h, l), k)), h2.top)
    ensures Valid(h3, l.(sz := l.sz + 1))
    ensures Order(h3, l.(sz := l.sz + 1)) == Order(h, l)[..k] + [x] + Order(h, l)[k..]
    ensures Elements(h3, l.(sz := l.sz + 1)) == Elements(h, l)[..k] + [v] + Elements(h, l)[k..]
    ensures Untouched(h, h3, Footprint(h, l))
    ensures h3.cells.Keys == h.cells.Keys + {x} && h3.cells[x].next == At(l.root, Order(h, l), k)
    ensures forall p | p in h.cells :: p in h3.cells && h3.cells[p].value == h.cells[p].value
  {
    var ids := Order(h, l);
    var ids' := ids[..k] + [x] + ids[k..];
    var l' := l.(sz := l.sz + 1);
    assert x !in ids by {
      assert forall i | 0 <= i < |ids| :: ids[i] in h.cells;
    }
    ShapeFrame(h.cells, h2.cells, l.root, ids);
    HookShape(h2.cells, l.root, ids, x, k);
    var pk := Pred(k, |ids|);
    assert At(l.root, ids, pk) in Footprint(h, l) && At(l.root, ids, k) in Footprint(h, l) by {
      if pk < |ids| { assert ids[pk] in SetOf(ids); }
      if k < |ids| { assert ids[k] in SetOf(ids); }
    }
    ValuesSpliced(h.cells, h3.cells, ids, k, x, v);
    LinkedIsValid(h3, l', ids');
  }

  /** The node hooked in at position `k` is new to the heap and to the list,
      which gains it and nothing else. */
  lemma HookedIn<T>(h: Heap<T>, l: List, x: Ptr, v: T, k: int, h3: Heap<T>)
    requires Valid(h, l) && 0 <= k <= |Order(h, l)| && x !in h.cells
    requires Valid(h3, l.(sz := l.sz + 1))
    requires Order(h3, l.(sz := l.sz + 1)) == Order(h, l)[..k] + [x] + Order(h, l)[k..]
    requires Elements(h3, l.(sz := l.sz + 1)) == Elements(h, l)[..k] + [v] + Elements(h, l)[k..]
    requires h3.cells.Keys == h.cells.Keys + {x} && h3.cells[x].next == At(l.root, Order(h, l), k)
    ensures Extends(h, l, h3, l.(sz := l.sz + 1))
    ensures OnRing(h, l, At(l.root, Order(h, l), k))
    ensures Inserted(h, l, At(l.root, Order(h, l), k), v, Outcome(h3, l.(sz := l.sz + 1), Ok(x)))
  {
    var ids := Order(h, l);
    SpliceSet(ids, x, k);
    FootprintAllocated(h, l);
    var pos := At(l.root, ids, k);
    assert OnRing(h, l, pos) by {
      if k < |ids| { assert ids[k] in ids; }
    }
    AtInjective(l.root, ids, PosIn(l.root, ids, pos), k);
  }

  /** `List::insertNode(ptr, args...)`: allocate a node, construct its payload
      and hook it in just before `pos`. If allocation or construction throws,
      the storage is given back and the list is left as it was. */
  function InsertNode<T>(h: Heap<T>, l: List, pos: Ptr, v: T, fault: Option<Fault>): (r: Outcome<T, Ptr>)
    requires Valid(h, l) && OnRing(h, l, pos)
    ensures r.list.root == l.root && Valid(r.heap, r.list)
    ensures Untouched(h, r.heap, Footprint(h, l))
    ensures Extends(h, l, r.heap, r.list)
    ensures forall p | p in h.cells :: p in r.heap.cells && r.heap.cells[p].value == h.cells[p].value
    ensures fault.Some? ==> r.result == Threw(fault.value) && r.heap.cells == h.cells && r.list == l
    ensures fault.None? ==> Inserted(h, l, pos, v, r)
  {
    if fault == Some(OutOfMemory) then Outcome(h, l, Threw(OutOfMemory))
    else
      var (x, h1) := Allocate(h);
      if fault.Some? then
        AllocateThenDeallocate(h);
        var h4 := Deallocate(h1, x);
        SameCells(h, h4, l);
        Outcome(h4, l, Threw(fault.value))
      else
        var ids := Order(h, l);
        var k := PosIn(l.root, ids, pos);
        ShapeIsClosed(h.cells, l.root, ids, pos);
        var h2 := Heap(h1.cells[x := h1.cells[x].(value := Some(v))], h1.top);
        var h3 := Heap(Hook(h2.cells, x, pos), h2.top);
        HookNew(h, l, h2, x, v, k, h3);
        HookedIn(h, l, x, v, k, h3);
        Outcome(h3, l.(sz := l.sz + 1), Ok(x))
  }

  /** What `eraseNode(ptr)` achieves on a payload node. */
  ghost predicate Erased<T>(h: Heap<T>, l: List, ptr: Ptr, r: Outcome<T, Ptr>)
    requires Valid(h, l) && ptr in Order(h, l) && Valid(r.heap, r.list)
  {
    var ids := Order(h, l);
    var k := IndexOf(ids, ptr);
    && r.result == Ok(At(l.root, ids, k + 1))
    && r.list.sz == l.sz - 1
    && r.heap.cells.Keys == h.cells.Keys - {ptr}
    && Order(r.heap, r.list) == ids[..k] + ids[k + 1..]
    && Elements(r.heap, r.list) == Elements(h, l)[..k] + Elements(h, l)[k + 1..]
  }

  /** Unlinking and freeing the payload node at position `k`. */
  lemma UnhookOld<T>(h: Heap<T>, l: List, k: int, h3: Heap<T>)
    requires Valid(h, l) && 0 <= k < |Order(h, l)|
    requires
      var x := Order(h, l)[k];
      var c1 := h.cells[x := h.cells[x].(value := None)];
      && x in c1 && c1[x].prev in c1 && c1[x].next in c1
      && h3 == Heap(Unhook(c1, x) - {x}, h.top)
    ensures Valid(h3, l.(sz := l.sz - 1))
    ensures Order(h3, l.(sz := l.sz - 1)) == Order(h, l)[..k] + Order(h, l)[k + 1..]
    ensures Elements(h3, l.(sz := l.sz - 1)) == Elements(h, l)[..k] + Elements(h, l)[k + 1..]
    ensures Untouched(h, h3, Footprint(h, l))
    ensures forall p | p in h3.cells :: p in h.cells && h3.cells[p].value == h.cells[p].value
  {
    var ids := Order(h, l);
    var x := ids[k];
    var c1 := h.cells[x := h.cells[x].(value := None)];
    var ids' := ids[..k] + ids[k + 1..];
    var l' := l.(sz := l.sz - 1);
    ShapeFrame(h.cells, c1, l.root, ids);
    UnhookShape(c1, l.root, ids, k);
    var c2 := Unhook(c1, x);
    assert x !in ids' && x != l.root by {
      AtInjective(l.root, ids, k, |ids|);
      forall i | 0 <= i < |ids'| ensures ids'[i] != x {
        var i0 := if i < k then i else i + 1;
        AtInjective(l.root, ids, i0, k);
      }
    }
    assert forall i | 0 <= i < |ids'| :: ids'[i] in ids;
    ShapeFrame(c2, h3.cells, l.root, ids');
    forall i | 0 <= i < |ids| && i != k ensures ids[i] in h3.cells && h3.cells[ids[i]].value == h.cells[ids[i]].value {
      assert Apart(ids, i, k) && Apart(ids, k, i);
    }
    ValuesDropped(h.cells, h3.cells, ids, k);
    LinkedIsValid(h3, l', ids');
  }

  /** `List::eraseNode(ptr)`: the sentinel is refused and returned; a payload
      node is destroyed, unhooked and freed, and its former successor is
      returned. */
  function EraseNode<T>(h: Heap<T>, l: List, ptr: Ptr): (r: Outcome<T, Ptr>)
    requires Valid(h, l) && OnRing(h, l, ptr)
    ensures r.list.root == l.root && Valid(r.heap, r.list)
    ensures Untouched(h, r.heap, Footprint(h, l))
    ensures forall p | p in r.heap.cells :: p in h.cells && r.heap.cells[p].value == h.cells[p].value
    ensures ptr == l.root ==> r == Outcome(h, l, Ok(ptr))
    ensures ptr != l.root ==> Erased(h, l, ptr, r)
  {
    if ptr == l.root then Outcome(h, l, Ok(ptr))
    else
      var ids := Order(h, l);
      var k := IndexOf(ids, ptr);
      UnhookShape(h.cells, l.root, ids, k);
      var ret := h.cells[ptr].next;
      var c1 := h.cells[ptr := h.cells[ptr].(value := None)];
      var c2 := Unhook(c1, ptr);
      var h3 := Deallocate(Heap(c2, h.top), ptr);
      UnhookOld(h, l, k, h3);
      Outcome(h3, l.(sz := l.sz - 1), Ok(ret))
  }

  /** `m_root.next` is the first payload node and `m_root.prev` the last; both
      are the sentinel itself when the list is empty. */
  lemma Ends<T>(h: Heap<T>, l: List)
    requires Valid(h, l)
    ensures var ids := Order(h, l);
      && h.cells[l.root].next == (if ids == [] then l.root else ids[0])
      && h.cells[l.root].prev == (if ids == [] then l.root else ids[|ids| - 1])
  {
    var ids := Order(h, l);
    var n := |ids|;
    assert Edge(h.cells, At(l.root, ids, n), At(l.root, ids, Succ(n, n)));
    assert Succ(Pred(n, n), n) == n;
    assert Edge(h.cells, At(l.root, ids, Pred(n, n)), At(l.root, ids, Succ(Pred(n, n), n)));
  }

  /** `List(const Allocator&)`: a new list object whose sentinel is looped onto
      itself. */
  function NewList<T>(h: Heap<T>): (r: (Heap<T>, List))
    requires HeapOk(h)
    ensures Valid(r.0, r.1) && Elements(r.0, r.1) == [] && r.1.sz == 0
    ensures r.1.root !in h.cells && r.0.cells.Keys == h.cells.Keys + {r.1.root}
    ensures r.0.cells[r.1.root].next == r.1.root && r.0.cells[r.1.root].prev == r.1.root
    ensures Untouched(h, r.0, {})
  {
    var (root, h1) := Allocate(h);
    var h2 := Heap(InitToThis(h1.cells, root), h1.top);
    var l := List(root, 0);
    LinkedIsValid(h2, l, []);
    (h2, l)
  }

  /** The status of an operation returning `void` that constructs one element. */
  function Status(fault: Option<Fault>): Result<()>
  {
    if fault.None? then Ok(()) else Threw(fault.value)
  }

  /** `push_back(value)`: append, or on a throw leave the list as it was. */
  function PushBack<T>(h: Heap<T>, l: List, v: T, fault: Option<Fault>): (r: Outcome<T, ()>)
    requires Valid(h, l)
    ensures r.list.root == l.root && Valid(r.heap, r.list)
    ensures Untouched(h, r.heap, Footprint(h, l))
    ensures Extends(h, l, r.heap, r.list)
    ensures fault.Some? ==> r.result == Threw(fault.value) && r.heap.cells == h.cells && r.list == l
    ensures fault.None? ==> r.result == Ok(()) && Elements(r.heap, r.list) == Elements(h, l) + [v]
  {
    var o := InsertNode(h, l, l.root, v, fault);
    assert fault.None? ==> Elements(o.heap, o.list) == Elements(h, l) + [v] by {
      var e := Elements(h, l);
      assert e[..|e|] == e && e[|e|..] == [];
    }
    Outcome(o.heap, o.list, Status(fault))
  }

  /** `push_front(value)`: prepend, or on a throw leave the list as it was. */
  function PushFront<T>(h: Heap<T>, l: List, v: T, fault: Option<Fault>): (r: Outcome<T, ()>)
    requires Valid(h, l)
    ensures r.list.root == l.root && Valid(r.heap, r.list)
    ensures Untouched(h, r.heap, Footprint(h, l))
    ensures Extends(h, l, r.heap, r.list)
    ensures fault.Some? ==> r.result == Threw(fault.value) && r.heap.cells == h.cells && r.list == l
    ensures fault.None? ==> r.result == Ok(()) && Elements(r.heap, r.list) == [v] + Elements(h, l)
  {
    Ends(h, l);
    var ids := Order(h, l);
    var pos := h.cells[l.root].next;
    AtInjective(l.root, ids, PosIn(l.root, ids, pos), 0);
    var o := InsertNode(h, l, pos, v, fault);
    assert fault.None? ==> Elements(o.heap, o.list) == [v] + Elements(h, l) by {
      var e := Elements(h, l);
      assert e[..0] == [] && e[0..] == e;
    }
    Outcome(o.heap, o.list, Status(fault))
  }

  /** `pop_back()`: drop the last element; on an empty list nothing changes. */
  function PopBack<T>(h: Heap<T>, l: List): (r: Outcome<T, ()>)
    requires Valid(h, l)
    ensures r.list.root == l.root && Valid(r.heap, r.list) && r.result == Ok(())
    ensures Untouched(h, r.heap, Footprint(h, l))
    ensures Elements(h, l) == [] ==> r.heap == h && r.list == l
    ensures Elements(h, l) != [] ==>
      && Elements(r.heap, r.list) == Elements(h, l)[..|Elements(h, l)| - 1]
      && Order(r.heap, r.list) == Order(h, l)[..|Order(h, l)| - 1]
      && r.list.sz == l.sz - 1
      && r.heap.cells.Keys == h.cells.Keys - {Order(h, l)[|Order(h, l)| - 1]}
  {
    Ends(h, l);
    var ids := Order(h, l);
    var pos := h.cells[l.root].prev;
    AtInjective(l.root, ids, PosIn(l.root, ids, pos), Pred(|ids|, |ids|));
    var o := EraseNode(h, l, pos);
    Outcome(o.heap, o.list, Ok(()))
  }

  /** `pop_front()`: drop the first element; on an empty list nothing changes. */
  function PopFront<T>(h: Heap<T>, l: List): (r: Outcome<T, ()>)
    requires Valid(h, l)
    ensures r.list.root == l.root && Valid(r.heap, r.list) && r.result == Ok(())
    ensures Untouched(h, r.heap, Footprint(h, l))
    ensures Elements(h, l) == [] ==> r.heap == h && r.list == l
    ensures Elements(h, l) != [] ==>
      && Elements(r.heap, r.list) == Elements(h, l)[1..]
      && Order(r.heap, r.list) == Order(h, l)[1..]
      && r.list.sz == l.sz - 1
      && r.heap.cells.Keys == h.cells.Keys - {Order(h, l)[0]}
  {
    Ends(h, l);
    var ids := Order(h, l);
    var pos := h.cells[l.root].next;
    AtInjective(l.root, ids, PosIn(l.root, ids, pos), 0);
    var o := EraseNode(h, l, pos);
    Outcome(o.heap, o.list, Ok(()))
  }

  /** `front()`: the first element. Calling it on an empty list is undefined. */
  function Front<T>(h: Heap<T>, l: List): (r: T)
    requires Valid(h, l) && l.sz > 0
    ensures Elements(h, l) != [] && r == Elements(h, l)[0]
  {
    Ends(h, l);
    h.cells[h.cells[l.root].next].value.value
  }

  /** `back()`: the last element. Calling it on an empty list is undefined. */
  function Back<T>(h: Heap<T>, l: List): (r: T)
    requires Valid(h, l) && l.sz > 0
    ensures Elements(h, l) != [] && r == Elements(h, l)[|Elements(h, l)| - 1]
  {
    Ends(h, l);
    h.cells[h.cells[l.root].prev].value.value
  }

  /** `emplace_back(args...)`: append and hand back a reference to the new
      element, which is `back()`. The reference is the address of the node
      holding it. */
  function EmplaceBack<T>(h: Heap<T>, l: List, v: T, fault: Option<Fault>): (r: Outcome<T, Ptr>)
    requires Valid(h, l)
    ensures r.list.root == l.root && Valid(r.heap, r.list)
    ensures Untouched(h, r.heap, Footprint(h, l))
    ensures Extends(h, l, r.heap, r.list)
    ensures fault.Some? ==> r.result == Threw(fault.value) && r.heap.cells == h.cells && r.list == l
    ensures fault.None? ==>
      && Elements(r.heap, r.list) == Elements(h, l) + [v]
      && r.result.Ok? && r.result.value !in h.cells
      && r.list.sz > 0 && r.result.value in r.heap.cells
      && r.heap.cells[r.result.value].value == Some(Back(r.heap, r.list))
      && Back(r.heap, r.list) == v
  {
    var o := PushBack(h, l, v, fault);
    if fault.Some? then Outcome(o.heap, o.list, Threw(fault.value))
    else
      Ends(o.heap, o.list);
      var ids := Order(o.heap, o.list);
      var last := o.heap.cells[l.root].prev;
      assert last == ids[|ids| - 1];
      assert last !in h.cells by {
        assert PosIn(l.root, Order(h, l), l.root) == |Order(h, l)|;
      }
      Outcome(o.heap, o.list, Ok(last))
  }

  /** `size()`: the counter, which equals the number of payload nodes met
      walking `next` from `begin()` to `end()`. */
  function Size<T>(h: Heap<T>, l: List): (r: nat)
    requires Valid(h, l)
    ensures r == |Order(h, l)| && r == |Elements(h, l)|
  {
    l.sz
  }

  /** `empty()`: whether the counter is zero, that is, whether there are no
      elements. */
  function Empty<T>(h: Heap<T>, l: List): (r: bool)
    requires Valid(h, l)
    ensures r <==> Elements(h, l) == []
    ensures r <==> h.cells[l.root].next == l.root
  {
    Ends(h, l);
    l.sz == 0
  }

  /** Cells untouched twice over, the second time outside a smaller
      footprint, are untouched. */
  lemma UntouchedTrans<T>(h1: Heap<T>, h2: Heap<T>, h3: Heap<T>, fp: set<Ptr>, fp': set<Ptr>)
    requires Untouched(h1, h2, fp) && Untouched(h2, h3, fp') && fp' <= fp
    ensures Untouched(h1, h3, fp)
  {
  }

  /** One round of `clear()`: the walk loses its last node, which is freed. */
  lemma ClearStep<T>(h: Heap<T>, l: List, ids: seq<Ptr>, h1: Heap<T>, l1: List, h2: Heap<T>, l2: List)
    requires Valid(h, l) && ids == Order(h, l)
    requires l1.root == l.root && Valid(h1, l1) && 0 < l1.sz <= |ids|
    requires Order(h1, l1) == ids[..l1.sz]
    requires h1.cells.Keys == h.cells.Keys - SetOf(ids[l1.sz..])
    requires Untouched(h, h1, Footprint(h, l))
    requires l2.root == l.root && Valid(h2, l2) && l2.sz == l1.sz - 1
    requires Order(h2, l2) == Order(h1, l1)[..|Order(h1, l1)| - 1]
    requires h2.cells.Keys == h1.cells.Keys - {Order(h1, l1)[|Order(h1, l1)| - 1]}
    requires Untouched(h1, h2, Footprint(h1, l1))
    ensures Order(h2, l2) == ids[..l2.sz]
    ensures h2.cells.Keys == h.cells.Keys - SetOf(ids[l2.sz..])
    ensures Untouched(h, h2, Footprint(h, l))
  {
    var n := l1.sz;
    assert Footprint(h1, l1) <= Footprint(h, l) by {
      forall p | p in SetOf(ids[..n]) ensures p in SetOf(ids) {
        var i :| 0 <= i < n && ids[..n][i] == p;
        assert ids[i] == p;
      }
    }
    UntouchedTrans(h, h1, h2, Footprint(h, l), Footprint(h1, l1));
    assert SetOf(ids[n - 1..]) == SetOf(ids[n..]) + {ids[n - 1]} by {
      assert ids[n - 1..] == [ids[n - 1]] + ids[n..];
    }
  }

  /** `clear()` (and the destructor, which is `clear()`): pop the back until the
      counter is zero. Frees exactly the payload nodes and leaves the sentinel
      looped onto itself. */
  method Clear<T>(h: Heap<T>, l: List) returns (h': Heap<T>, l': List)
    requires Valid(h, l)
    ensures l'.root == l.root && Valid(h', l') && l'.sz == 0 && Elements(h', l') == []
    ensures h'.cells[l.root].next == l.root && h'.cells[l.root].prev == l.root
    ensures h'.cells.Keys == h.cells.Keys - SetOf(Order(h, l))
    ensures Untouched(h, h', Footprint(h, l))
  {
    ghost var ids := Order(h, l);
    h', l' := h, l;
    while l'.sz != 0
      invariant l'.root == l.root && Valid(h', l')
      invariant l'.sz <= |ids| && Order(h', l') == ids[..l'.sz]
      invariant h'.cells.Keys == h.cells.Keys - SetOf(ids[l'.sz..])
      invariant Untouched(h, h', Footprint(h, l))
      decreases l'.sz
    {
      var o := PopBack(h', l');
      ClearStep(h, l, ids, h', l', o.heap, o.list);
      h', l' := o.heap, o.list;
    }
    assert ids[0..] == ids;
    Ends(h', l');
  }
}

=== FILE: ring.dfy ===
/**
 Ring topology of `_priv::BaseNode`: the four link operations and the shape of a
 closed ring anchored at a sentinel.

 A ring through `root` whose payload nodes are `ids`, in `next` order, has the
 positions 0 .. |ids|; position k < |ids| holds `ids[k]` and position |ids| is
 `root` itself (the list's `end()`). Each position is joined to its successor by
 an edge: `next` points forward along it and `prev` points back.
 */
module Ring {
  import opened Base

  /** The node at position `k` of the ring. */
  function At(root: Ptr, ids: seq<Ptr>, k: int): Ptr
    requires 0 <= k <= |ids|
  {
    if k < |ids| then ids[k] else root
  }

  /** The position after `k` in a ring with `n` payload nodes. */
  function Succ(k: int, n: nat): int
  {
    if k < n then k + 1 else 0
  }

  /** The position before `k` in a ring with `n` payload nodes. */
  function Pred(k: int, n: nat): int
  {
    if k == 0 then n else k - 1
  }

  /** Positions `i` and `j` of `s`, when both exist, hold different
      pointers. */
  predicate Apart(s: seq<Ptr>, i: int, j: int)
  {
    0 <= i < |s| && 0 <= j < |s| ==> s[i] != s[j]
  }

  /** No pointer occurs twice in `s`. The quantifier fires only on `Apart`
      terms, so a context holding many indexed sequences stays small. */
  predicate Distinct(s: seq<Ptr>)
  {
    forall i, j | 0 <= i < j < |s| :: Apart(s, i, j)
  }

  /** The pointers a sequence mentions. */
  function SetOf(s: seq<Ptr>): set<Ptr>
  {
    set x | x in s
  }

  /** `a` and `b` are doubly linked: `a.next == b` and `b.prev == a`. */
  predicate Edge<T>(cells: map<Ptr, Node<T>>, a: Ptr, b: Ptr)
  {
    a in cells && b in cells && cells[a].next == b && cells[b].prev == a
  }

  /** `cells` hold a closed ring through `root` whose payload nodes, walking
      `next`, are exactly `ids`. */
  predicate Shape<T>(cells: map<Ptr, Node<T>>, root: Ptr, ids: seq<Ptr>)
  {
    && root in cells
    && root !in ids
    && Distinct(ids)
    && (forall i | 0 <= i < |ids| :: ids[i] in cells)
    && (forall k {:trigger Succ(k, |ids|)} | 0 <= k <= |ids| :: Edge(cells, At(root, ids, k), At(root, ids, Succ(k, |ids|))))
  }

  /** Distinct positions hold distinct nodes. */
  lemma AtInjective(root: Ptr, ids: seq<Ptr>, i: int, j: int)
    requires root !in ids && Distinct(ids)
    requires 0 <= i <= |ids| && 0 <= j <= |ids|
    ensures At(root, ids, i) == At(root, ids, j) <==> i == j
  {
    if i < |ids| && j < |ids| && i != j {
      var lo, hi := if i < j then i else j, if i < j then j else i;
      assert Apart(ids, lo, hi);
    } else if i < |ids| {
      assert ids[i] in ids;
    } else if j < |ids| {
      assert ids[j] in ids;
    }
  }

  /** Where a pointer known to be on the ring sits. */
  function PosIn(root: Ptr, ids: seq<Ptr>, p: Ptr): (k: nat)
    requires p == root || p in ids
    ensures k <= |ids| && At(root, ids, k) == p
    ensures p == root && root !in ids ==> k == |ids|
  {
    if p in ids then IndexOf(ids, p) else |ids|
  }

  function IndexOf(s: seq<Ptr>, x: Ptr): (k: nat)
    requires x in s
    ensures k < |s| && s[k] == x
  {
    if s[0] == x then 0 else 1 + IndexOf(s[1..], x)
  }

  /** The invariant the container promises for every node of the ring: both
      neighbours point back at it. */
  lemma {:induction false} ShapeIsClosed<T>(cells: map<Ptr, Node<T>>, root: Ptr, ids: seq<Ptr>, m: Ptr)
    requires Shape(cells, root, ids)
    requires m == root || m in ids
    ensures cells[m].next in cells && cells[cells[m].next].prev == m
    ensures cells[m].prev in cells && cells[cells[m].prev].next == m
  {
    var n := |ids|;
    var k := PosIn(root, ids, m);
    var pk := Pred(k, n);
    assert Succ(pk, n) == k;
    assert Edge(cells, At(root, ids, k), At(root, ids, Succ(k, n)));
    assert Edge(cells, At(root, ids, pk), At(root, ids, Succ(pk, n)));
  }

  /** The links of the ring are all `Shape` looks at: payloads and cells off the
      ring may change freely. */
  lemma ShapeFrame<T>(cells: map<Ptr, Node<T>>, cells': map<Ptr, Node<T>>, root: Ptr, ids: seq<Ptr>)
    requires Shape(cells, root, ids)
    requires root in cells' && cells'[root].prev == cells[root].prev && cells'[root].next == cells[root].next
    requires forall i | 0 <= i < |ids| :: ids[i] in cells' && cells'[ids[i]].prev == cells[ids[i]].prev && cells'[ids[i]].next == cells[ids[i]].next
    ensures Shape(cells', root, ids)
  {
    forall k | 0 <= k <= |ids|
      ensures Edge(cells', At(root, ids, k), At(root, ids, Succ(k, |ids|)))
    {
      assert Edge(cells, At(root, ids, k), At(root, ids, Succ(k, |ids|)));
    }
  }

  /** `BaseNode::hook`: splice the unlinked node `x` into the ring just before
      `node`, rewriting four links and nothing else. */
  function Hook<T>(cells: map<Ptr, Node<T>>, x: Ptr, node: Ptr): (r: map<Ptr, Node<T>>)
    requires x in cells && node in cells && cells[node].prev in cells
    requires x != node && x != cells[node].prev
    ensures r.Keys == cells.Keys
    ensures r[x].next == node && r[x].prev == cells[node].prev
    ensures r[cells[node].prev].next == x && r[node].prev == x
    ensures forall a | a in cells && a != x && a != cells[node].prev :: r[a].next == cells[a].next
    ensures forall b | b in cells && b != x && b != node :: r[b].prev == cells[b].prev
    ensures forall a | a in cells :: r[a].value == cells[a].value
  {
    var c1 := cells[x := cells[x].(next := node)];
    var c2 := c1[x := c1[x].(prev := c1[node].prev)];
    var p := c2[node].prev;
    var c3 := c2[p := c2[p].(next := x)];
    c3[node := c3[node].(prev := x)]
  }

  /** `BaseNode::unhook`: join the two neighbours of `x` to each other and null
      out the links of `x`. */
  function Unhook<T>(cells: map<Ptr, Node<T>>, x: Ptr): (r: map<Ptr, Node<T>>)
    requires x in cells && cells[x].prev in cells && cells[x].next in cells
    ensures r.Keys == cells.Keys
    ensures r[x].prev == Null && r[x].next == Null
    ensures cells[x].prev != x ==> r[cells[x].prev].next == cells[x].next
    ensures cells[x].prev != x && cells[x].next != x ==> r[cells[x].next].prev == cells[x].prev
    ensures forall a | a in cells && a != x && a != cells[x].prev :: r[a].next == cells[a].next
    ensures forall b | b in cells && b != x && b != cells[x].next :: r[b].prev == cells[b].prev
    ensures forall a | a in cells :: r[a].value == cells[a].value
  {
    var c1 := cells[cells[x].prev := cells[cells[x].prev].(next := cells[x].next)];
    var c2 := c1[c1[x].next := c1[c1[x].next].(prev := c1[x].prev)];
    var c3 := c2[x := c2[x].(prev := Null)];
    c3[x := c3[x].(next := Null)]
  }

  /** A link of an anchor that is about to move to `other`: a self-loop is
      redirected to `other` instead of being copied verbatim. */
  function Redirect(link: Ptr, self: Ptr, other: Ptr): Ptr
  {
    if link != self then link else other
  }

  /** `BaseNode::swap`: exchange the links of two anchors. */
  function Swap<T>(cells: map<Ptr, Node<T>>, a: Ptr, b: Ptr): (r: map<Ptr, Node<T>>)
    requires a in cells && b in cells
    ensures r.Keys == cells.Keys
    ensures forall p | p in cells && p != a && p != b :: r[p] == cells[p]
    ensures forall p | p in cells :: r[p].value == cells[p].value
  {
    var tmp := if cells[a].prev != a then cells[a].prev else b;
    var c1 := cells[a := cells[a].(prev := if cells[b].prev != b then cells[b].prev else a)];
    var c2 := c1[b := c1[b].(prev := tmp)];
    var tmp2 := if c2[a].next != a then c2[a].next else b;
    var c3 := c2[a := c2[a].(next := if c2[b].next != b then c2[b].next else a)];
    c3[b := c3[b].(next := tmp2)]
  }

  /** What `Swap` does to the two anchors: each takes the other's links, and a
      self-loop on one side becomes a self-loop on the other side's own
      address. Swapping an anchor with itself changes nothing. */
  lemma SwapExchanges<T>(cells: map<Ptr, Node<T>>, a: Ptr, b: Ptr)
    requires a in cells && b in cells
    ensures a != b ==>
      && Swap(cells, a, b)[a].prev == Redirect(cells[b].prev, b, a)
      && Swap(cells, a, b)[a].next == Redirect(cells[b].next, b, a)
      && Swap(cells, a, b)[b].prev == Redirect(cells[a].prev, a, b)
      && Swap(cells, a, b)[b].next == Redirect(cells[a].next, a, b)
    ensures a == b ==> Swap(cells, a, b) == cells
  {
    if a == b {
      var r := Swap(cells, a, b);
      assert r[a] == cells[a];
      assert forall p | p in r :: r[p] == cells[p];
    }
  }

  /** Swapping an empty anchor with the anchor of a non-empty ring moves the
      ring's ends over and leaves the other anchor self-looped. */
  lemma SwapWithEmpty<T>(cells: map<Ptr, Node<T>>, a: Ptr, b: Ptr)
    requires a in cells && b in cells && a != b
    requires cells[a].prev == a && cells[a].next == a
    requires cells[b].prev != b && cells[b].next != b
    ensures Swap(cells, a, b)[a].prev == cells[b].prev && Swap(cells, a, b)[a].next == cells[b].next
    ensures Swap(cells, a, b)[b].prev == b && Swap(cells, a, b)[b].next == b
  {
    SwapExchanges(cells, a, b);
  }

  /** Swapping two anchors of separate rings twice restores both. */
  lemma SwapInvolution<T>(cells: map<Ptr, Node<T>>, a: Ptr, b: Ptr)
    requires a in cells && b in cells
    requires cells[a].prev != b && cells[a].next != b
    requires cells[b].prev != a && cells[b].next != a
    ensures Swap(Swap(cells, a, b), a, b) == cells
  {
    var r1 := Swap(cells, a, b);
    var r2 := Swap(r1, a, b);
    SwapExchanges(cells, a, b);
    SwapExchanges(r1, a, b);
    if a != b {
      assert r2[a] == cells[a];
      assert r2[b] == cells[b];
    }
    assert forall p | p in r2 :: r2[p] == cells[p];
  }

  /** `BaseNode::initToThis`: make `x` the anchor of an empty ring. */
  function InitToThis<T>(cells: map<Ptr, Node<T>>, x: Ptr): (r: map<Ptr, Node<T>>)
    requires x in cells
    ensures Shape(r, x, [])
    ensures r.Keys == cells.Keys && r[x].value == cells[x].value
    ensures forall p | p in cells && p != x :: r[p] == cells[p]
  {
    var r := cells[x := cells[x].(prev := x, next := x)];
    assert Edge(r, At(x, [], 0), At(x, [], Succ(0, 0)));
    r
  }

  /** Splicing `x` into a sequence adds exactly `x` to its set of members. */
  lemma SpliceSet(s: seq<Ptr>, x: Ptr, k: int)
    requires 0 <= k <= |s|
    ensures SetOf(s[..k] + [x] + s[k..]) == SetOf(s) + {x}
  {
    var t := s[..k] + [x] + s[k..];
    forall y | y in SetOf(t) ensures y in SetOf(s) + {x} {
      var q :| 0 <= q < |t| && t[q] == y;
      if q > k { assert t[q] == s[q - 1]; }
    }
    forall y | y in SetOf(s) ensures y in SetOf(t) {
      var q :| 0 <= q < |s| && s[q] == y;
      if q < k { assert t[q] == y; } else { assert t[q + 1] == y; }
    }
  }

  /** The node at position `j` once `x` is inserted at position `k`. */
  lemma AtAfterInsert(root: Ptr, ids: seq<Ptr>, k: int, x: Ptr, j: int)
    requires 0 <= k <= |ids| && 0 <= j <= |ids| + 1
    ensures At(root, ids[..k] + [x] + ids[k..], j)
         == if j < k then At(root, ids, j) else if j == k then x else At(root, ids, j - 1)
  {
  }

  /** The node at position `j` once position `k` is removed. */
  lemma AtAfterRemove(root: Ptr, ids: seq<Ptr>, k: int, j: int)
    requires 0 <= k < |ids| && 0 <= j <= |ids| - 1
    ensures At(root, ids[..k] + ids[k + 1..], j) == if j < k then At(root, ids, j) else At(root, ids, j + 1)
  {
  }

  /** Hooking an unlinked node in before position `k` keeps the ring closed and
      puts the node at position `k`. */
  lemma HookShape<T>(cells: map<Ptr, Node<T>>, root: Ptr, ids: seq<Ptr>, x: Ptr, k: int)
    requires Shape(cells, root, ids)
    requires x in cells && x != root && x !in ids
    requires 0 <= k <= |ids|
    ensures cells[At(root, ids, k)].prev == At(root, ids, Pred(k, |ids|))
    ensures Shape(Hook(cells, x, At(root, ids, k)), root, ids[..k] + [x] + ids[k..])
  {
    var n := |ids|;
    var node := At(root, ids, k);
    var p := At(root, ids, Pred(k, n));
    assert Succ(Pred(k, n), n) == k;
    assert Edge(cells, p, node);
    var r := Hook(cells, x, node);
    var ids' := ids[..k] + [x] + ids[k..];
    var n' := n + 1;
    assert Distinct(ids') by {
      forall i, j | 0 <= i < j < n' ensures Apart(ids', i, j) {
        AtAfterInsert(root, ids, k, x, i);
        AtAfterInsert(root, ids, k, x, j);
        if i != k && j != k {
          var i0 := if i < k then i else i - 1;
          var j0 := if j < k then j else j - 1;
          AtInjective(root, ids, i0, j0);
        }
      }
    }
    assert root !in ids' by {
      forall i | 0 <= i < n' ensures ids'[i] != root {
        AtAfterInsert(root, ids, k, x, i);
        if i != k {
          var i0 := if i < k then i else i - 1;
          AtInjective(root, ids, i0, n);
        }
      }
    }
    forall j | 0 <= j <= n'
      ensures Edge(r, At(root, ids', j), At(root, ids', Succ(j, n')))
    {
      var sj := Succ(j, n');
      AtAfterInsert(root, ids, k, x, j);
      AtAfterInsert(root, ids, k, x, sj);
      if j == k {
        assert At(root, ids', j) == x && At(root, ids', sj) == node;
      } else if j == Pred(k, n') {
        assert At(root, ids', j) == p && At(root, ids', sj) == x;
      } else {
        var j0 := if j < k then j else j - 1;
        assert At(root, ids', j) == At(root, ids, j0);
        assert At(root, ids', sj) == At(root, ids, Succ(j0, n));
        assert Edge(cells, At(root, ids, j0), At(root, ids, Succ(j0, n)));
        AtInjective(root, ids, j0, Pred(k, n));
        AtInjective(root, ids, Succ(j0, n), k);
      }
    }
  }

  /** Unhooking the node at position `k` keeps the rest of the ring closed, in
      order, without it. */
  lemma UnhookShape<T>(cells: map<Ptr, Node<T>>, root: Ptr, ids: seq<Ptr>, k: int)
    requires Shape(cells, root, ids)
    requires 0 <= k < |ids|
    ensures cells[ids[k]].prev == At(root, ids, Pred(k, |ids|)) && cells[ids[k]].next == At(root, ids, k + 1)
    ensures Shape(Unhook(cells, ids[k]), root, ids[..k] + ids[k + 1..])
  {
    var n := |ids|;
    var x := ids[k];
    var p := At(root, ids, Pred(k, n));
    var nx := At(root, ids, k + 1);
    assert Succ(Pred(k, n), n) == k;
    assert Edge(cells, p, x);
    assert Edge(cells, At(root, ids, k), At(root, ids, Succ(k, n)));
    AtInjective(root, ids, Pred(k, n), k);
    AtInjective(root, ids, k + 1, k);
    var r := Unhook(cells, x);
    var ids' := ids[..k] + ids[k + 1..];
    var n' := n - 1;
    assert Distinct(ids') by {
      forall i, j | 0 <= i < j < n' ensures Apart(ids', i, j) {
        AtAfterRemove(root, ids, k, i);
        AtAfterRemove(root, ids, k, j);
        var i0 := if i < k then i else i + 1;
        var j0 := if j < k then j else j + 1;
        AtInjective(root, ids, i0, j0);
      }
    }
    assert root !in ids' by {
      forall i | 0 <= i < n' ensures ids'[i] != root {
        AtAfterRemove(root, ids, k, i);
        var i0 := if i < k then i else i + 1;
        AtInjective(root, ids, i0, n);
      }
    }
    forall j | 0 <= j <= n'
      ensures Edge(r, At(root, ids', j), At(root, ids', Succ(j, n')))
    {
      var sj := Succ(j, n');
      AtAfterRemove(root, ids, k, j);
      AtAfterRemove(root, ids, k, sj);
      if j == Pred(k, n') {
        assert At(root, ids', j) == p && At(root, ids', sj) == nx;
      } else {
        var j0 := if j < k then j else j + 1;
        assert At(root, ids', j) == At(root, ids, j0);
        assert At(root, ids', sj) == At(root, ids, Succ(j0, n));
        assert Edge(cells, At(root, ids, j0), At(root, ids, Succ(j0, n)));
        AtInjective(root, ids, j0, Pred(k, n));
        AtInjective(root, ids, j0, k);
        AtInjective(root, ids, Succ(j0, n), k + 1);
        AtInjective(root, ids, Succ(j0, n), k);
      }
    }
  }
}

=== FILE: scenarios.dfy ===
/**
 Concrete scenarios of the model on small lists of integers: what a caller of
 `List<int>` observes. Each scenario starts from whatever heap `h0` the rest of the
 program has left behind.

 The steps of a scenario are methods, so that a scenario sees each step only through
 what it does to the elements.
 */
module Scenarios {
  import opened Base
  import opened Lists
  import opened Iterators
  import opened Copy
  import opened Findings

  /** A new empty list. */
  method Start(h0: Heap<int>) returns (s: (Heap<int>, List))
    requires HeapOk(h0)
    ensures Valid(s.0, s.1) && Elements(s.0, s.1) == []
  {
    s := NewList(h0);
  }

  /** `push_back(v)`. */
  method PushBackStep(s: (Heap<int>, List), v: int) returns (r: (Heap<int>, List))
    requires Valid(s.0, s.1)
    ensures Valid(r.0, r.1) && Elements(r.0, r.1) == Elements(s.0, s.1) + [v]
  {
    var o := PushBack(s.0, s.1, v, None);
    r := (o.heap, o.list);
  }

  /** `push_front(v)`. */
  method PushFrontStep(s: (Heap<int>, List), v: int) returns (r: (Heap<int>, List))
    requires Valid(s.0, s.1)
    ensures Valid(r.0, r.1) && Elements(r.0, r.1) == [v] + Elements(s.0, s.1)
  {
    var o := PushFront(s.0, s.1, v, None);
    r := (o.heap, o.list);
  }

  /** `pop_back()` on a non-empty list. */
  method PopBackStep(s: (Heap<int>, List)) returns (r: (Heap<int>, List))
    requires Valid(s.0, s.1) && Elements(s.0, s.1) != []
    ensures Valid(r.0, r.1) && Elements(r.0, r.1) == Elements(s.0, s.1)[..|Elements(s.0, s.1)| - 1]
  {
    var o := PopBack(s.0, s.1);
    r := (o.heap, o.list);
  }

  /** A new list holding `vs`, built with `push_back`. */
  method Build(h0: Heap<int>, vs: seq<int>) returns (s: (Heap<int>, List))
    requires HeapOk(h0)
    ensures Valid(s.0, s.1) && Elements(s.0, s.1) == vs
  {
    s := Start(h0);
    for i := 0 to |vs|
      invariant Valid(s.0, s.1) && Elements(s.0, s.1) == vs[..i]
    {
      s := PushBackStep(s, vs[i]);
      assert vs[..i + 1] == vs[..i] + [vs[i]];
    }
    assert vs[..|vs|] == vs;
  }

  /** push_back 1, 2, 3, 4; pop_back; push_back 5; push_front 10. */
  method PushAndPop(h0: Heap<int>) returns (xs: seq<int>, front: int, back: int, size: nat)
    requires HeapOk(h0)
    ensures xs == [10, 1, 2, 3, 5] && front == 10 && back == 5 && size == 5
  {
    var s := Start(h0);
    s := PushBackStep(s, 1);
    s := PushBackStep(s, 2);
    s := PushBackStep(s, 3);
    s := PushBackStep(s, 4);
    s := PopBackStep(s);
    assert Elements(s.0, s.1) == [1, 2, 3];
    s := PushBackStep(s, 5);
    s := PushFrontStep(s, 10);
    xs := Elements(s.0, s.1);
    size := Size(s.0, s.1);
    front, back := Front(s.0, s.1), Back(s.0, s.1);
  }

  /** erase(next(begin())) on [1, 2, 3] removes 2 and returns the iterator
      at 3. */
  method EraseMiddle(h0: Heap<int>) returns (xs: seq<int>, at: int)
    requires HeapOk(h0)
    ensures xs == [1, 3] && at == 3
  {
    var s := Build(h0, [1, 2, 3]);
    var it := Next(s.0, s.1, Begin(s.0, s.1));
    var o := Erase(s.0, s.1, it);
    xs := Elements(o.heap, o.list);
    at := Deref(o.heap, o.list, o.result.value);
  }

  /** erase(begin(), end()) empties the list and returns end(). */
  method EraseAll(h0: Heap<int>) returns (xs: seq<int>, atEnd: bool)
    requires HeapOk(h0)
    ensures xs == [] && atEnd
  {
    var s := Build(h0, [1, 2, 3]);
    var h', l', r := EraseRange(s.0, s.1, Begin(s.0, s.1), End(s.0, s.1));
    xs := Elements(h', l');
    atEnd := Equal(h', l', r, End(h', l'));
  }

  /** An emplace_back whose constructor throws leaves [1, 2] as it was and
      lets the exception out. */
  method FailedEmplace(h0: Heap<int>) returns (xs: seq<int>, res: Result<Ptr>)
    requires HeapOk(h0)
    ensures xs == [1, 2] && res == Threw(ConstructorThrows)
  {
    var s := Build(h0, [1, 2]);
    var o := EmplaceBack(s.0, s.1, 3, Some(ConstructorThrows));
    xs, res := Elements(o.heap, o.list), o.result;
  }

  /** Copying [1, 2, 3] when the copy of the second element throws: the
      exception gets out and no storage stays behind. */
  method FailedCopy(h0: Heap<int>) returns (res: Result<()>, leak: bool)
    requires HeapOk(h0)
    ensures res == Threw(ConstructorThrows) && !leak
  {
    var s := Build(h0, [1, 2, 3]);
    var h', dst, r := CopyConstruct(s.0, s.1, Some(Failure(1, ConstructorThrows)));
    res, leak := r, h'.cells != s.0.cells;
  }

  /** emplace_front(7) on [1] as written hands back the node holding 1; the
      corrected version hands back the node holding 7. */
  method EmplaceFrontOnOne(h0: Heap<int>) returns (asWritten: Option<int>, corrected: Option<int>)
    requires HeapOk(h0)
    ensures asWritten == Some(1) && corrected == Some(7)
  {
    var s := Build(h0, [1]);
    var w := EmplaceFrontAsWritten(s.0, s.1, 7, None);
    asWritten := w.heap.cells[w.result.value].value;
    var c := EmplaceFront(s.0, s.1, 7, None);
    corrected := c.heap.cells[c.result.value].value;
  }
}

=== FILE: walk.dfy ===
/**
 Walking a ring: the payload nodes met following `next` (or `prev`) from a
 start node until the sentinel comes round again. The walk never visits a node
 twice, so it ends even on a heap whose links are not a ring.
 */
module Walk {
  import opened Base
  import opened Ring

  /** Follow `next` from `cur` until `root`, a node already met, or a dangling
      pointer. */
  function Forward<T>(cells: map<Ptr, Node<T>>, cur: Ptr, root: Ptr, unvisited: set<Ptr>): seq<Ptr>
    decreases unvisited
  {
    if cur == root || cur !in unvisited || cur !in cells then []
    else [cur] + Forward(cells, cells[cur].next, root, unvisited - {cur})
  }

  /** Follow `prev` from `cur` until `root`, a node already met, or a dangling
      pointer. */
  function Backward<T>(cells: map<Ptr, Node<T>>, cur: Ptr, root: Ptr, unvisited: set<Ptr>): seq<Ptr>
    decreases unvisited
  {
    if cur == root || cur !in unvisited || cur !in cells then []
    else [cur] + Backward(cells, cells[cur].prev, root, unvisited - {cur})
  }

  function Reverse<X>(s: seq<X>): (r: seq<X>)
    ensures |r| == |s|
    ensures forall i | 0 <= i < |s| :: r[i] == s[|s| - 1 - i]
  {
    if s == [] then [] else [s[|s| - 1]] + Reverse(s[..|s| - 1])
  }

  /** From position `k` of a closed ring, the forward walk meets exactly the
      payload nodes from `k` on. */
  lemma {:induction false} ForwardFrom<T>(cells: map<Ptr, Node<T>>, root: Ptr, ids: seq<Ptr>, k: int)
    requires Shape(cells, root, ids)
    requires 0 <= k <= |ids|
    ensures Forward(cells, At(root, ids, k), root, cells.Keys - {root} - SetOf(ids[..k])) == ids[k..]
    decreases |ids| - k
  {
    if k < |ids| {
      var u := cells.Keys - {root} - SetOf(ids[..k]);
      assert ids[k] !in ids[..k] by {
        forall i | 0 <= i < k ensures ids[..k][i] != ids[k] {
          assert Apart(ids, i, k);
        }
      }
      assert ids[k] != root by {
        assert ids[k] in ids;
      }
      assert ids[k] in u;
      assert Edge(cells, At(root, ids, k), At(root, ids, Succ(k, |ids|)));
      assert SetOf(ids[..k + 1]) == SetOf(ids[..k]) + {ids[k]} by {
        assert ids[..k + 1] == ids[..k] + [ids[k]];
      }
      assert u - {ids[k]} == cells.Keys - {root} - SetOf(ids[..k + 1]);
      ForwardFrom(cells, root, ids, k + 1);
      assert ids[k..] == [ids[k]] + ids[k + 1..];
    }
  }

  /** Walking `next` from `root.next` over a closed ring yields its payload
      nodes in order, and nothing else. */
  lemma ForwardShape<T>(cells: map<Ptr, Node<T>>, root: Ptr, ids: seq<Ptr>)
    requires Shape(cells, root, ids)
    ensures Forward(cells, cells[root].next, root, cells.Keys - {root}) == ids
  {
    assert Edge(cells, At(root, ids, |ids|), At(root, ids, Succ(|ids|, |ids|)));
    ForwardFrom(cells, root, ids, 0);
    assert SetOf(ids[..0]) == {};
    assert cells.Keys - {root} - SetOf(ids[..0]) == cells.Keys - {root};
    assert ids[0..] == ids;
  }

  /** From the node before position `m`, the backward walk meets exactly the
      payload nodes before `m`, last first. */
  lemma {:induction false} BackwardFrom<T>(cells: map<Ptr, Node<T>>, root: Ptr, ids: seq<Ptr>, m: int)
    requires Shape(cells, root, ids)
    requires 0 <= m <= |ids|
    ensures Backward(cells, if m == 0 then root else ids[m - 1], root, cells.Keys - {root} - SetOf(ids[m..]))
         == Reverse(ids[..m])
    decreases m
  {
    if m > 0 {
      var x := ids[m - 1];
      var u := cells.Keys - {root} - SetOf(ids[m..]);
      assert x !in ids[m..] by {
        forall i | m <= i < |ids| ensures ids[i] != x {
          assert Apart(ids, m - 1, i);
        }
      }
      assert x != root by {
        assert x in ids;
      }
      assert x in u;
      var pk := Pred(m - 1, |ids|);
      assert Succ(pk, |ids|) == m - 1;
      assert Edge(cells, At(root, ids, pk), At(root, ids, Succ(pk, |ids|)));
      assert cells[x].prev == if m - 1 == 0 then root else ids[m - 2];
      assert SetOf(ids[m - 1..]) == SetOf(ids[m..]) + {x} by {
        assert ids[m - 1..] == [x] + ids[m..];
      }
      assert u - {x} == cells.Keys - {root} - SetOf(ids[m - 1..]);
      BackwardFrom(cells, root, ids, m - 1);
      assert ids[..m][..m - 1] == ids[..m - 1];
    }
  }

  /** Walking `prev` from `root.prev` over a closed ring yields its payload
      nodes in reverse order. */
  lemma BackwardShape<T>(cells: map<Ptr, Node<T>>, root: Ptr, ids: seq<Ptr>)
    requires Shape(cells, root, ids)
    ensures Backward(cells, cells[root].prev, root, cells.Keys - {root}) == Reverse(ids)
  {
    var n := |ids|;
    assert Succ(Pred(n, n), n) == n;
    assert Edge(cells, At(root, ids, Pred(n, n)), At(root, ids, Succ(Pred(n, n), n)));
    assert cells[root].prev == if n == 0 then root else ids[n - 1];
    BackwardFrom(cells, root, ids, n);
    assert SetOf(ids[n..]) == {};
    assert cells.Keys - {root} - SetOf(ids[n..]) == cells.Keys - {root};
    assert ids[..n] == ids;
  }
}
